=== FILE: README.md ===
# scivision core, modelled in Dafny

scivision is a catalog and loader for computer-vision models and datasets.
This project models two parts of it.

**The catalog** (`scivision/catalog/catalog.py`), module `Catalog` in `catalog.dfy`:
- The five task tags.
- Model and datasource entries.
- The catalog-wide rule that entry names are unique.
- The dispatch that turns a constructor argument into a table.
- The compatibility matcher, which finds the models that can run on a datasource and the datasources a model can run on.
- The `PandasCatalog` object.

A pandas table is modelled as `Table`: either the sequence of its rows, or `NoColumns`, the frame `pd.DataFrame([])` that an entry list with no entries produces. A column read on a frame without columns is the error `MissingColumns`. A boolean-mask selection is `Seqs.Filter`, which keeps rows in table order; its `KeptIndices` witness makes the result an ordered subsequence.

**The loader** (`scivision/io/reader.py`), module `Reader` in `reader.dfy`:
- `_parse_url`, which rewrites a `github.com` browsing URL into a `raw.githubusercontent.com` URL.
- `_get_model_configs`, which splits a multi-model config or selects one model from it.
- The rule that completes a repository path to its `.scivision/model.yml` or `.scivision/data.yml` config file.

`_get_model_configs` changes the caller's dictionary in place, so it is modelled twice:
- as a method on a `ConfigDict` object whose `entries` field is reassigned;
- as the function `ModelConfigs`, which the method is proved against.

Supporting modules:
- `wrappers.dfy`: `Option` and `Result`.
- `seqs.dfy`: filtering, distinctness and the repeated-name scan.
- `strings.dfy`: Python's `split`, `filter(None, …)`, `join`, `replace(pat, "")`, `startswith` and `endswith`.

Python exceptions become the `Err` cases of a `Result`:
- `Catalog.CatalogError` covers `ValueError`, `TypeError`, `KeyError` and `AttributeError` in the catalog.
- `Reader.ConfigError` covers the loader's `KeyError` (`KeyMissing`), `TypeError` from indexing a value that is not a dict (`NotSubscriptable`), `IndexError` (`NoModels`) and `ValueError` (`ModelNotFound`). Its case `ModelsNotAList` is not a Python exception: it marks a `models` value the model does not iterate (see "Left out").

## Model

| member | source | states |
|---|---|---|
| Catalog.ParseTask | scivision/catalog/catalog.py:15-20 | A string is read as a task tag only if it is that tag's value. Any other string is rejected. |
| Catalog.ValidateModelEntries | scivision/catalog/catalog.py:95-103 | Accepts exactly when the model names are pairwise distinct, and then returns the entries unchanged. Otherwise the error lists, once each, exactly the names that occur more than once. |
| Catalog.ValidateDatasourceEntries | scivision/catalog/catalog.py:172-180 | The same contract for datasource names. |
| Catalog.SharedNameIsReported | scivision/catalog/catalog.py:97-101 | Any two entries that share a name make validation fail, and that name is in the error. |
| Catalog.CoerceModels | scivision/catalog/catalog.py:201-216 | A built catalog is returned unchanged. A path or `None` succeeds exactly when its document parses and has distinct names. A table or any other value is a type error. |
| Catalog.CoerceDatasources | scivision/catalog/catalog.py:183-198 | The same dispatch for the datasource catalog. |
| Catalog.ModelTable | scivision/catalog/catalog.py:248-252 | A table argument is the result unchanged, with no name check. Any other argument succeeds exactly when coercion does, and fails with coercion's own error. On success the result is a table of the coerced entries, or a table without columns when there are none. Its rows then have distinct names, whether the argument was a built catalog, a path or `None` (names checked at catalog.py:95-103). |
| Catalog.DatasourceTable | scivision/catalog/catalog.py:240-246 | The same for the datasource table, with the name check at catalog.py:172-180. |
| Catalog.EmptyDocumentGivesNoColumns | scivision/catalog/catalog.py:251-252 | A document with no model entries passes the name check and yields a table without columns. |
| Catalog.PandasCatalog.Open | scivision/catalog/catalog.py:237-252 | Builds the datasources table first, then the models table. The first failure is the error. On success the object holds the two tables. |
| Catalog.CompatibleModelsOf | scivision/catalog/catalog.py:262-286 | Every returned model is a row of the table with the datasource's exact format and suitable labels. Some row with its name shares a task with the datasource. |
| Catalog.CompatibleDatasourcesOf | scivision/catalog/catalog.py:295-319 | The mirror image for datasources returned for a model. |
| Catalog.CompatibleModelsExact | scivision/catalog/catalog.py:271-284 | With distinct names, the format, label and name-based task masks select exactly the rows that pass the per-row compatibility test, in table order. |
| Catalog.CompatibleDatasourcesExact | scivision/catalog/catalog.py:304-317 | The same for the datasource query. |
| Catalog.CompatibleModelsComplete | scivision/catalog/catalog.py:282-284 | With distinct names, a model is returned exactly when it is a row that passes all three tests, and no name is returned twice. |
| Catalog.CompatibleDatasourcesComplete | scivision/catalog/catalog.py:315-317 | The same for datasources. |
| Catalog.CompatibilityIsMutual | scivision/catalog/catalog.py:262-319 | A model is returned for a datasource exactly when that datasource is returned for the model. |
| Catalog.NoTasksNoModels | scivision/catalog/catalog.py:120-121 | A datasource that declares no task, or keeps the default `None`, gets no model. |
| Catalog.NoTasksNoDatasources | scivision/catalog/catalog.py:46-47 | A model with an empty task tuple gets no datasource. |
| Catalog.SinglePairCatalog | scivision/catalog/catalog.py:262-319 | In a one-model, one-datasource catalog, each query returns the other entry exactly when the pair is compatible. |
| Catalog.QueryWithoutLabels | scivision/catalog/catalog.py:271-284 | A datasource without labels gets exactly the rows of its format that require no labels and whose name is held by some row sharing a task with it, in table order. |
| Catalog.LabelFreeOfQueryWithLabels | scivision/catalog/catalog.py:271-284 | The label-free part of the result for the same datasource with labels is that same selection. |
| Catalog.WithdrawingLabelsDropsLabelRequiringModels | scivision/catalog/catalog.py:288-294 | Label asymmetry: a datasource without labels gets exactly the models it would get with labels, minus those that require labels. |
| Catalog.FindDatasource | scivision/catalog/catalog.py:342 | Looking up a name gives a row with that name. A name no row has is an error. With distinct names, it gives the one row so named. |
| Catalog.FindModel | scivision/catalog/catalog.py:367 | The same lookup in the model table. |
| Catalog.LookupDatasource | scivision/catalog/catalog.py:341-342 | Indexing by name fails with `MissingColumns` on a table without columns, and otherwise is `FindDatasource` on its rows. |
| Catalog.LookupModel | scivision/catalog/catalog.py:366-367 | The same lookup in the model table. |
| Catalog.PandasCatalog.CompatibleModels | scivision/catalog/catalog.py:321-345 | A record is queried directly against the model rows. A model table without columns fails with `MissingColumns` however the datasource is given (the `format` read at catalog.py:263-264). A name fails with `MissingColumns` on a datasource table without columns and with `NotFound` when no row has it. With distinct names, a name gives the same result as its row. A name only succeeds on a datasource table with columns. |
| Catalog.PandasCatalog.CompatibleDatasources | scivision/catalog/catalog.py:347-370 | The mirror image for model queries (the `format` read at catalog.py:296-297). A record is matched with the label rule `CompatibleDatasourcesOf` states; see "Findings". |
| Catalog.EmptyTablesDiffer | scivision/catalog/catalog.py:250-264 | A model table with columns and no rows answers any datasource record with no models. The table built from a document with no entries fails instead. |
| Catalog.PlainBoolLabelMaskKeepsAll | scivision/catalog/catalog.py:300-302 | When `labels_required` is a plain `bool`, the label mask keeps every row: `~True` is -2 and `~False` is -1, and or-ing 0 or 1 into them never gives 0. |
| Catalog.CompatibleDatasourcesOfPlainRecord | scivision/catalog/catalog.py:295-319 | The query as written for a record whose `labels_required` is a plain `bool`. Every datasource returned is a row of the table with the model's format. |
| Catalog.PlainRecordSkipsLabelTest | scivision/catalog/catalog.py:295-319 | As written, such a record's result is the format filter followed by the task filter, with no label test. |
| Catalog.PlainRecordIgnoresLabels | scivision/catalog/catalog.py:300-302 | A record requiring labels, and a datasource of its format and task without labels: as written the datasource is returned, while `CompatibleDatasourcesOf` returns nothing. |
| Reader.ParseUrl | scivision/io/reader.py:26-47 | A URL whose host is not `github.com` is returned unchanged. A `github.com` URL gets the raw-content host, keeps its scheme, parameters, query and fragment, and has its path rebuilt. |
| Reader.ParseUrlInsertsBranch | scivision/io/reader.py:37-42 | For a non-empty branch name without "/" that does not start with "blob": if the branch is not among the non-empty segments and no segment after the owner starts with "blob", the new path holds the segments with the branch inserted after owner and repository. With more than two segments, the path is exactly that join. |
| Reader.BranchPieces | scivision/io/reader.py:39 | The pieces a branch name contributes to the path are "/"-free and join back to the name. A name without "/" is one piece (`Reader.SlashFreeBranchIsOnePiece`). |
| Reader.SlashFreeBranchIsOnePiece | scivision/io/reader.py:39 | A branch name without "/" contributes itself as its one piece. |
| Reader.ParseUrlInsertsPieces | scivision/io/reader.py:37-42 | For any branch name, including one with "/" or an empty one: on a path of more than two segments that does not hold the branch as one segment, the branch's "/"-pieces are inserted after owner and repository, and then only segments equal to "blob" are dropped. This holds when no segment after the owner and no piece of the branch merely starts with "blob". |
| Reader.BrowserUrlMatchesPlainUrl | scivision/io/reader.py:38-42 | A browser URL with `blob/<branch>` after owner and repository gives the same raw URL as the plain repository URL. This holds when the plain path has more than two segments, none of the segments after the owner starts with "blob", and the branch is not already a segment. It also needs a non-empty branch name without "/" that does not start with "blob": a name with "/" is repeated (see "Findings"). At the repository root it fails: `/owner/repo` becomes `owner/repo/main/`, but `/owner/repo/blob/main` becomes `owner/repo/main`. |
| Reader.RemoveBlobBySegment | scivision/io/reader.py:42 | When every segment after the first is either "blob" or does not start with "blob", deleting "/blob" from the joined path drops exactly the "blob" segments. |
| Reader.RawUrlOfRepositoryFile | tests/test_reader.py:9-13 | The repository file URL of the test gets `main` after owner and repository; the same holds for `test-branch` (tests/test_reader.py:23-29). |
| Reader.RawUrlOfBrowserUrl | tests/test_reader.py:16-20 | The browser URL with `blob/main` gives the same raw URL as the plain one. |
| Reader.SplitOne | scivision/io/reader.py:76-83 | One element succeeds exactly when the top level has `name`, `url` and `import` and the element is a dict with `model`, `args` and `prediction_fn`. The result holds exactly those six keys, each from its place. |
| Reader.SplitAll | scivision/io/reader.py:74-84 | Succeeds exactly when every element splits, giving one config per element in order. |
| Reader.SplitAllFirstFailure | scivision/io/reader.py:74-84 | When every element before the i-th splits and the i-th does not, the result is the i-th element's error. |
| Reader.SplitEach | scivision/io/reader.py:74-84 | The loop that appends one new dict per element. It succeeds or fails as `SplitAll` does, with the same error. On success it returns new dicts whose contents are `SplitAll`'s configs. |
| Reader.MultipleModelsSplitPerElement | scivision/io/reader.py:74-84 | With `load_multiple` and a `models` list, the input is left unchanged and the model name plays no part. The result has one config per element, each taking `name`, `url` and `import` from the top level and the rest from its element. |
| Reader.SingleSelectionReturnsOneConfig | scivision/io/reader.py:104-115 | Without `load_multiple`, or without `models`, a success returns exactly one config: the input dict as it was left. |
| Reader.Adopt | scivision/io/reader.py:88-90 | Succeeds exactly when the element is a dict with `model`, `args` and `prediction_fn`, and then writes those three into the config. Whether or not it succeeds, no other key is added, removed or changed. |
| Reader.SelectNamed | scivision/io/reader.py:93-98 | Without a match the config is untouched. A match adopts an element whose `model` is the name. An unmatched search without error saw every element's `model`, and none was the name. |
| Reader.ModelConfigs | scivision/io/reader.py:50-116 | The config is changed in the three model keys at most. Without `models`, or with `load_multiple`, it is left as it was. |
| Reader.DefaultTakesFirstModel | scivision/io/reader.py:86-90 | `model="default"` copies the first element's `model`, `args` and `prediction_fn` into the top level and keeps every other key. An empty list is an error. |
| Reader.NamedSelectionTakesFirstMatch | scivision/io/reader.py:92-98 | A name found in `models` adopts the first element carrying it; earlier elements are passed over. |
| Reader.MissingNamedModelRaises | scivision/io/reader.py:99-103 | A name found nowhere in `models` raises `ValueError` when the top level has no `model` key, and the config is left untouched. |
| Reader.MissingSingleModelRaises | scivision/io/reader.py:112-114 | In a single-model config, a different `model` raises `ValueError`, and a missing `model` key raises `KeyError`. |
| Reader.SearchNamed | scivision/io/reader.py:93-98 | The search loop leaves the dict and reports an error exactly as `SelectNamed` does: the first element whose `model` is the name is adopted, and the loop stops there. |
| Reader.AdoptModel | scivision/io/reader.py:88-90 | Writes `model`, `args` and `prediction_fn` into the dict, in that order. A missing key stops the writes, and the earlier writes stay. |
| Reader.GetModelConfigs | scivision/io/reader.py:50-116 | The dict is left as `ModelConfigs` says, with the same success or error. Multi mode returns new dicts whose contents are the split configs. Otherwise it returns the input dict itself. |
| Reader.CompleteConfigPath | scivision/io/reader.py:154-160 | The result always ends in `.yml` or `.yaml`. A path already ending so is unchanged; any other path gets `.scivision/model.yml` appended, or `.scivision/data.yml` at reader.py:206-212. |
| Reader.CompletionIsIdempotent | scivision/io/reader.py:206-212 | Completing twice is completing once, and the completed path starts with the given one. |
| Reader.BlobPrefixedRepositoryIsMangled | scivision/io/reader.py:42 | As written, `github.com/owner/blobs` with branch `main` becomes the path `owners/main/`. |
| Reader.ParseUrlBySegment | scivision/io/reader.py:26-47 | The corrected rewrite drops only segments that equal "blob". It has the same host and field behaviour as `ParseUrl`. |
| Reader.ParseUrlBySegmentAgrees | scivision/io/reader.py:42 | For a branch name without "/" that is "blob" or does not start with "blob": the corrected rewrite equals `ParseUrl` whenever no segment after the owner merely starts with "blob". |
| Reader.ParseUrlBySegmentKeepsSegments | scivision/io/reader.py:37-42 | For a non-empty branch name without "/", on a path of more than two segments that does not hold the branch: the corrected path has the owner, the repository, the branch and the rest as segments, with only "blob" segments left out. |
| Reader.SlashBranchIsRepeated | scivision/io/reader.py:38-42 | As written, a branch name with "/" is never a segment, so it is inserted even into a browser URL that already names it after "blob". When the plain path has more than two segments, and neither the segments after the owner nor the branch's pieces start with "blob", the browser URL's path holds the branch's pieces twice, the plain URL's path holds them once, and the two raw URLs differ. |
| Reader.FeatureBranchIsRepeated | scivision/io/reader.py:38-42 | As written, `github.com/o/r/blob/feature/x/a` with branch `feature/x` becomes `o/r/feature/x/feature/x/a`, while `github.com/o/r/a` becomes `o/r/feature/x/a`. |
| Reader.ParseUrlByPieces | scivision/io/reader.py:26-47 | The corrected rewrite does not insert a branch that the path already holds as consecutive segments, one or several, and drops only segments equal to "blob". Host and fields are handled as in `ParseUrl`. |
| Reader.ParseUrlByPiecesAgrees | scivision/io/reader.py:38-42 | For a branch name without "/", the corrected rewrite is `ParseUrlBySegment`. |
| Reader.BrowserUrlMatchesPlainUrlByPieces | scivision/io/reader.py:38-42 | Corrected, a browser URL with "blob" and the branch's pieces after owner and repository gives the same raw URL as the plain one. This holds for any branch name, with or without "/", when the plain path has more than two segments and does not already hold the pieces as consecutive segments; branch pieces or segments that are or start with "blob" are allowed. |
| Reader.FeatureBranchIsKeptOnce | scivision/io/reader.py:38-42 | Corrected, both URLs of the `feature/x` example become `o/r/feature/x/a`. |
| Reader.BlobPrefixedRepositoryIsKept | scivision/io/reader.py:42 | Corrected, `github.com/owner/blobs` keeps `blobs` as its own segment, followed by `main`. |
| Reader.StaleModelKeyHidesMissingName | scivision/io/reader.py:99-103 | As written, a top-level `model` key left in a multi-model config hides a missing name: no error, and the config comes back unchanged. |
| Reader.ModelConfigsStrict | scivision/io/reader.py:92-104 | The corrected selection changes the config in the three model keys at most. A successful named selection returns the one config it left behind, and its `model` is the name asked for. |
| Reader.StrictRaisesForMissingName | scivision/io/reader.py:99-103 | With the corrected test, a missing name raises whether or not a top-level `model` key is present. |
| Reader.StrictAgreesWithoutStaleKey | scivision/io/reader.py:50-116 | Without a top-level `model` key, the corrected selection and the original agree on every input. |

## Left out

- Parsing the JSON catalogs and validating field types (pydantic `parse_raw`, URL types, `extra="forbid"`) is not modelled. A path or the bundled catalog carries the document it parses to, or `None` when parsing fails.
- Reading files and package data (`Path.read_text`, `pkgutil.get_data`) is not modelled; it is I/O.
- The module-level `default_catalog` is not modelled; it is an import-time side effect.
- `QueryResult`, `PandasQueryResult`, `to_dataframe` and `to_dict` are not modelled. A query result is the sequence of selected rows.
- Catalog.FindDatasource: pandas `.loc` on a name held by several rows is modelled as the error `AmbiguousName`. Python would return a sub-table, and the next step then fails on it.
- Catalog.PandasCatalog.CompatibleDatasources: a record is matched with the intended label rule, not with the all-keeping mask of catalog.py:300-302 (see "Findings"). A name lookup yields a row of numpy booleans, on which `~` is logical negation, so both paths use `CompatibleDatasourcesOf`.
- The datasource fields `domains`, `institution`, `tags`, `url` and `description` are carried, but no operation reads them.
- `_is_url`, `urlparse` and `geturl` are not modelled. A URL is the six-field record that `urlparse` returns. How `geturl` renders it, including the "/" put back before a path without one, is left out.
- `load_pretrained_model` and `load_dataset` are not modelled beyond their path-completion step. Left out: `fsspec.open`, `yaml.safe_load`, `intake.open_catalog`, `install_package`, the `@koala` decorator, and the `assert` on `prediction_fn` arguments. They are file, network and package I/O, or foreign calls.
- `scivision/io/autoplumber.py`, `scivision/io/wrapper.py` and `setup.py` are not part of this model. They rely on dynamic imports, reflection and third-party model code.
- Reader.BrowserUrlMatchesPlainUrl: stated only for a non-empty branch name without "/" that does not start with "blob". A name with "/" breaks the promise; that case is a finding, proved by `Reader.SlashBranchIsRepeated` and corrected by `Reader.ParseUrlByPieces`.
- Reader.ParseUrlInsertsBranch: its segment-by-segment statement needs a non-empty branch name without "/" that does not start with "blob". `Reader.ParseUrlInsertsPieces` states the path for any branch name on more than two segments.
- Reader.GetModelConfigs: the `warnings.warn` call for `load_multiple` on a single-model config is not modelled; it is a side effect on the console.
- Reader.ModelConfigs: a `models` value that is not a list gives `ModelsNotAList`. Python would iterate a dict or string in its own way.
- Reader.ModelConfigs: YAML values are strings, dicts, lists or an opaque scalar. Matching a name compares against a string value only.
- Reader.ModelConfigs: an empty `models` list with `model="default"` is the error `NoModels`, for Python's `IndexError`.

## Findings

| source | as written | input that shows it | evidently intended | confidence | as-written member | corrected member |
|---|---|---|---|---|---|---|
| scivision/catalog/catalog.py:300-302 | `~model["labels_required"]` on a plain Python `bool` is the integer -1 or -2, so the label mask keeps every row | a model record with `labels_required=True` and a datasource of the same format and task with `labels_provided=False`: the datasource is returned | a model that requires labels gets only datasources that provide them | not executed | Catalog.PlainRecordIgnoresLabels | Catalog.CompatibleDatasourcesOf |
| scivision/io/reader.py:38-42 | `branch not in split` compares the branch name with single segments, so a name with "/" is inserted even when the browser URL already names it after "blob" | `https://github.com/o/r/blob/feature/x/a`, branch `feature/x`: the path becomes `o/r/feature/x/feature/x/a`, while `https://github.com/o/r/a` gives `o/r/feature/x/a` | a browser URL gives the same raw URL as the plain one for every branch name, as tests/test_reader.py:16-20 promises for `main` | not executed | Reader.FeatureBranchIsRepeated | Reader.ParseUrlByPieces |
| scivision/io/reader.py:42 | `replace("/blob", "")` on the joined path also deletes "/blob" at the start of any segment that begins with "blob" | `https://github.com/owner/blobs`, branch `main`: the path becomes `owners/main/` | drop only a segment that is exactly "blob" | not executed | Reader.BlobPrefixedRepositoryIsMangled | Reader.ParseUrlBySegment |
| scivision/io/reader.py:99-103 | the not-found test asks whether the top-level dict has a `model` key, not whether the search matched | a config with a `models` list and a stale top-level `model`, asked for a name no element has: no `ValueError`, and the unchanged config is returned | raise `ValueError` whenever no element has the name | not executed | Reader.StaleModelKeyHidesMissingName | Reader.ModelConfigsStrict |

`Reader.ParseUrl`, `Reader.ModelConfigs`, `Reader.GetModelConfigs` and `Catalog.CompatibleDatasourcesOfPlainRecord` model the code as written. `Catalog.PandasCatalog.CompatibleDatasources` uses the corrected `Catalog.CompatibleDatasourcesOf`, whose properties are stated by `Catalog.CompatibleDatasourcesExact`, `Catalog.CompatibleDatasourcesComplete` and `Catalog.CompatibilityIsMutual`. Several lemmas cover the corrected definitions:
- `Reader.ParseUrlBySegmentKeepsSegments` and `Reader.BlobPrefixedRepositoryIsKept` state what `Reader.ParseUrlBySegment` guarantees.
- `Reader.BrowserUrlMatchesPlainUrlByPieces` and `Reader.FeatureBranchIsKeptOnce` state what `Reader.ParseUrlByPieces` guarantees; `Reader.SlashBranchIsRepeated` is the general form of the as-written case.
- The contract of `Reader.ModelConfigsStrict` and `Reader.StrictRaisesForMissingName` state what the corrected selection guarantees.
- `Reader.ParseUrlBySegmentAgrees`, `Reader.ParseUrlByPiecesAgrees` and `Reader.StrictAgreesWithoutStaleKey` show that each correction agrees with the original wherever the original is right.

=== FILE: catalog.dfy ===
/**
 * The scivision catalog: model and datasource entries, the catalog-wide
 * name check, the dispatch that turns a constructor argument into a table,
 * and the compatibility matcher between the two tables.
 *
 * A pandas DataFrame of entries is modelled as a `Table`: the sequence of
 * its rows, in row order, or no columns at all, as `pd.DataFrame([])` has;
 * a boolean-mask selection is `Seqs.Filter`.
 */
module Catalog {
  import opened Wrappers
  import opened Seqs

  // ---------------------------------------------------------------------
  // Tasks
  // ---------------------------------------------------------------------

  /** The closed set of task tags an entry may declare. */
  datatype Task = Classification | ObjectDetection | Segmentation | Thresholding | Other

  /** The string value each tag carries. */
  function TaskValue(t: Task): string {
    match t
    case Classification => "classification"
    case ObjectDetection => "object-detection"
    case Segmentation => "segmentation"
    case Thresholding => "thresholding"
    case Other => "other"
  }

  /** Reads a task tag from its string value; any other string is rejected. */
  function ParseTask(s: string): (r: Option<Task>)
    ensures r.Some? ==> TaskValue(r.value) == s
    ensures r.None? ==> forall t: Task :: TaskValue(t) != s
  {
    if s == "classification" then Some(Classification)
    else if s == "object-detection" then Some(ObjectDetection)
    else if s == "segmentation" then Some(Segmentation)
    else if s == "thresholding" then Some(Thresholding)
    else if s == "other" then Some(Other)
    else None
  }

  /** Distinct tags have distinct values, so parsing a tag's value gives the tag back. */
  lemma TaskValueRoundTrip(t: Task)
    ensures ParseTask(TaskValue(t)) == Some(t)
  {
  }

  // ---------------------------------------------------------------------
  // Entries and catalogs
  // ---------------------------------------------------------------------

  /**
   * A model entry. `tasks` is an ordered tuple that may repeat a tag;
   * `format` is an opaque token compared by equality only.
   */
  datatype ModelEntry = ModelEntry(
    name: string,
    description: Option<string>,
    tasks: seq<Task>,
    url: string,
    pkgUrl: string,
    format: string,
    pretrained: bool,
    labelsRequired: bool,
    institution: seq<string>,
    tags: seq<string>)

  /**
   * A datasource entry. `tasks` is a frozenset whose default is `None`, and
   * `format`, `url` and `domains` also default to `None`.
   */
  datatype DatasourceEntry = DatasourceEntry(
    name: string,
    description: Option<string>,
    tasks: Option<set<Task>>,
    labelsProvided: bool,
    domains: Option<seq<string>>,
    url: Option<string>,
    format: Option<string>,
    institution: seq<string>,
    tags: seq<string>)

  /** A model catalog document: its label, its name and its entries. */
  datatype ModelCatalog = ModelCatalog(catalogType: string, name: string, entries: seq<ModelEntry>)

  /** A datasource catalog document. */
  datatype DatasourceCatalog = DatasourceCatalog(catalogType: string, name: string, entries: seq<DatasourceEntry>)

  datatype CatalogKind = ModelKind | DatasourceKind

  datatype CatalogError =
    | DuplicateNames(kind: CatalogKind, names: seq<string>)  // the ValueError of `name_unique_key`
    | SchemaViolation                                         // any other failure to parse a document
    | UnsupportedSource                                       // the TypeError of `_coerce_*_catalog`
    | NotFound(name: string)                                  // `.loc[name]` on a name the table lacks
    | AmbiguousName(name: string)                             // `.loc[name]` on a name held by several rows
    | MissingColumns(kind: CatalogKind)                       // a column read on a table without columns

  function ModelNames(entries: seq<ModelEntry>): (names: seq<string>)
    ensures |names| == |entries|
    ensures forall i :: 0 <= i < |entries| ==> names[i] == entries[i].name
  {
    seq(|entries|, i requires 0 <= i < |entries| => entries[i].name)
  }

  function DatasourceNames(entries: seq<DatasourceEntry>): (names: seq<string>)
    ensures |names| == |entries|
    ensures forall i :: 0 <= i < |entries| ==> names[i] == entries[i].name
  {
    seq(|entries|, i requires 0 <= i < |entries| => entries[i].name)
  }

  // ---------------------------------------------------------------------
  // Name uniqueness
  // ---------------------------------------------------------------------

  /**
   * The `entries` validator of a model catalog: it accepts exactly when no
   * two entries share a name, and then returns the entries unchanged;
   * otherwise its single error lists every repeated name once.
   */
  function ValidateModelEntries(entries: seq<ModelEntry>): (r: Result<seq<ModelEntry>, CatalogError>)
    ensures r.Ok? <==> Distinct(ModelNames(entries))
    ensures r.Ok? ==> r.value == entries
    ensures r.Err? ==> r.error.DuplicateNames? && r.error.kind == ModelKind
    ensures r.Err? ==> Distinct(r.error.names)
    ensures r.Err? ==> forall n :: n in r.error.names <==> multiset(ModelNames(entries))[n] > 1
  {
    var dups := Duplicates(ModelNames(entries));
    if dups != [] then Err(DuplicateNames(ModelKind, dups)) else Ok(entries)
  }

  /** The `entries` validator of a datasource catalog, with the same contract. */
  function ValidateDatasourceEntries(entries: seq<DatasourceEntry>): (r: Result<seq<DatasourceEntry>, CatalogError>)
    ensures r.Ok? <==> Distinct(DatasourceNames(entries))
    ensures r.Ok? ==> r.value == entries
    ensures r.Err? ==> r.error.DuplicateNames? && r.error.kind == DatasourceKind
    ensures r.Err? ==> Distinct(r.error.names)
    ensures r.Err? ==> forall n :: n in r.error.names <==> multiset(DatasourceNames(entries))[n] > 1
  {
    var dups := Duplicates(DatasourceNames(entries));
    if dups != [] then Err(DuplicateNames(DatasourceKind, dups)) else Ok(entries)
  }

  /** Two entries with one name make the validator report that name. */
  lemma {:induction false} SharedNameIsReported(entries: seq<ModelEntry>, i: nat, j: nat)
    requires i < j < |entries| && entries[i].name == entries[j].name
    ensures ValidateModelEntries(entries).Err?
    ensures entries[i].name in ValidateModelEntries(entries).error.names
  {
    var names := ModelNames(entries);
    assert names == names[..j] + [names[j]] + names[j + 1..];
    assert names[i] in names[..j];
    assert multiset(names)[names[i]] == multiset(names[..j])[names[i]] + 1 + multiset(names[j + 1..])[names[i]];
  }

  // ---------------------------------------------------------------------
  // Building the tables
  // ---------------------------------------------------------------------

  /** A model catalog that exists has passed the name check when it was built. */
  type ValidModelCatalog = c: ModelCatalog | Distinct(ModelNames(c.entries)) witness ModelCatalog("", "", [])

  /** A datasource catalog that exists has passed the name check when it was built. */
  type ValidDatasourceCatalog = c: DatasourceCatalog | Distinct(DatasourceNames(c.entries))
    witness DatasourceCatalog("", "", [])

  /**
   * A DataFrame of entries: its rows in order, or the frame that
   * `pd.DataFrame([])` builds from no entries, which has no columns at all,
   * not even `name` or `format`. A frame with columns may still have no rows.
   */
  datatype Table<R> = NoColumns | Rows(rows: seq<R>)

  /** `pd.DataFrame([ent.dict() for ent in entries])`. */
  function TableOf<R>(entries: seq<R>): (t: Table<R>)
    ensures t.NoColumns? <==> entries == []
    ensures t.Rows? ==> t.rows == entries
  {
    if entries == [] then NoColumns else Rows(entries)
  }

  /**
   * What a catalog constructor argument can be. `Built` holds a catalog
   * object, which passed the name check when it was made. `FromPath` and
   * `Bundled` carry the document that the file's text (or the bundled
   * snapshot) parses to before the name check, or `None` when the text is
   * not a well-formed document; reading and parsing the text is not
   * modelled. `Unsupported` stands for any other kind of Python value.
   */
  datatype Source<D, C, R> =
    | DataFrame(table: Table<R>)
    | Built(catalog: C)
    | FromPath(path: string, document: Option<D>)
    | Bundled(document: Option<D>)
    | Unsupported

  type ModelSource = Source<ModelCatalog, ValidModelCatalog, ModelEntry>
  type DatasourceSource = Source<DatasourceCatalog, ValidDatasourceCatalog, DatasourceEntry>

  /**
   * `_coerce_models_catalog`: an already-built catalog is returned as is;
   * a path or the bundled default is parsed and name-checked; anything
   * else, a table included, is a type error.
   */
  function CoerceModels(src: ModelSource): (r: Result<ValidModelCatalog, CatalogError>)
    ensures src.Built? ==> r == Ok(src.catalog)
    ensures src.DataFrame? || src.Unsupported? ==> r == Err(UnsupportedSource)
    ensures (src.FromPath? || src.Bundled?) ==>
      (r.Ok? <==> src.document.Some? && Distinct(ModelNames(src.document.value.entries)))
    ensures (src.FromPath? || src.Bundled?) && r.Ok? ==> r.value == src.document.value
    ensures (src.FromPath? || src.Bundled?) && src.document.None? ==> r == Err(SchemaViolation)
  {
    match src
    case Built(c) => Ok(c)
    case FromPath(_, doc) => CheckModelDocument(doc)
    case Bundled(doc) => CheckModelDocument(doc)
    case _ => Err(UnsupportedSource)
  }

  function CheckModelDocument(doc: Option<ModelCatalog>): Result<ValidModelCatalog, CatalogError> {
    match doc
    case None => Err(SchemaViolation)
    case Some(c) =>
      match ValidateModelEntries(c.entries)
      case Ok(_) => Ok(c)
      case Err(e) => Err(e)
  }

  /** `_coerce_datasources_catalog`, with the same dispatch. */
  function CoerceDatasources(src: DatasourceSource): (r: Result<ValidDatasourceCatalog, CatalogError>)
    ensures src.Built? ==> r == Ok(src.catalog)
    ensures src.DataFrame? || src.Unsupported? ==> r == Err(UnsupportedSource)
    ensures (src.FromPath? || src.Bundled?) ==>
      (r.Ok? <==> src.document.Some? && Distinct(DatasourceNames(src.document.value.entries)))
    ensures (src.FromPath? || src.Bundled?) && r.Ok? ==> r.value == src.document.value
    ensures (src.FromPath? || src.Bundled?) && src.document.None? ==> r == Err(SchemaViolation)
  {
    match src
    case Built(c) => Ok(c)
    case FromPath(_, doc) => CheckDatasourceDocument(doc)
    case Bundled(doc) => CheckDatasourceDocument(doc)
    case _ => Err(UnsupportedSource)
  }

  function CheckDatasourceDocument(doc: Option<DatasourceCatalog>): Result<ValidDatasourceCatalog, CatalogError> {
    match doc
    case None => Err(SchemaViolation)
    case Some(c) =>
      match ValidateDatasourceEntries(c.entries)
      case Ok(_) => Ok(c)
      case Err(e) => Err(e)
  }

  /**
   * The model table the catalog constructor settles on: a table argument is
   * taken as it is, with no name check; anything else goes through
   * `CoerceModels` and contributes a frame of its entries, which has no
   * columns when there are no entries.
   */
  function ModelTable(src: ModelSource): (r: Result<Table<ModelEntry>, CatalogError>)
    ensures src.DataFrame? ==> r == Ok(src.table)
    ensures !src.DataFrame? ==> (r.Ok? <==> CoerceModels(src).Ok?)
    ensures !src.DataFrame? && r.Err? ==> r.error == CoerceModels(src).error
    ensures !src.DataFrame? && r.Ok? ==> r.value == TableOf(CoerceModels(src).value.entries)
    ensures !src.DataFrame? && r.Ok? && r.value.Rows? ==> Distinct(ModelNames(r.value.rows))
  {
    if src.DataFrame? then Ok(src.table)
    else
      match CoerceModels(src)
      case Ok(c) => Ok(TableOf(c.entries))
      case Err(e) => Err(e)
  }

  /** The datasource table the catalog constructor settles on. */
  function DatasourceTable(src: DatasourceSource): (r: Result<Table<DatasourceEntry>, CatalogError>)
    ensures src.DataFrame? ==> r == Ok(src.table)
    ensures !src.DataFrame? ==> (r.Ok? <==> CoerceDatasources(src).Ok?)
    ensures !src.DataFrame? && r.Err? ==> r.error == CoerceDatasources(src).error
    ensures !src.DataFrame? && r.Ok? ==> r.value == TableOf(CoerceDatasources(src).value.entries)
    ensures !src.DataFrame? && r.Ok? && r.value.Rows? ==> Distinct(DatasourceNames(r.value.rows))
  {
    if src.DataFrame? then Ok(src.table)
    else
      match CoerceDatasources(src)
      case Ok(c) => Ok(TableOf(c.entries))
      case Err(e) => Err(e)
  }

  /** A document with no entries passes the name check and yields a table with no columns. */
  lemma EmptyDocumentGivesNoColumns(doc: ModelCatalog, path: string)
    requires doc.entries == []
    ensures ModelTable(FromPath(path, Some(doc))) == Ok(NoColumns)
  {
    assert Distinct(ModelNames(doc.entries));
  }

  // ---------------------------------------------------------------------
  // The matching rule
  // ---------------------------------------------------------------------

  /** The tasks a datasource declares; the default `None` declares none. */
  function DatasourceTasks(d: DatasourceEntry): set<Task> {
    if d.tasks.Some? then d.tasks.value else {}
  }

  /**
   * Exact string equality of the formats. A datasource whose format is
   * `None` matches no model, since comparing a column with `None` is false
   * everywhere.
   */
  predicate FormatMatches(m: ModelEntry, d: DatasourceEntry) {
    d.format == Some(m.format)
  }

  /** A model that requires labels needs a datasource that provides them. */
  predicate LabelsSuffice(m: ModelEntry, d: DatasourceEntry) {
    d.labelsProvided || !m.labelsRequired
  }

  /** The two task collections overlap; neither has to contain the other. */
  predicate SharesTask(m: ModelEntry, d: DatasourceEntry) {
    exists t :: t in m.tasks && t in DatasourceTasks(d)
  }

  /** The per-pair compatibility relation, the same in both query directions. */
  predicate Compatible(m: ModelEntry, d: DatasourceEntry) {
    FormatMatches(m, d) && LabelsSuffice(m, d) && SharesTask(m, d)
  }

  // ---------------------------------------------------------------------
  // The two filters
  // ---------------------------------------------------------------------

  /**
   * The names left by exploding the models' tasks, joining them with the
   * datasource's tasks and dropping repeated names. An empty task tuple
   * explodes to a missing value, which joins with no task.
   */
  function ModelNamesSharing(models: seq<ModelEntry>, tasks: set<Task>): set<string> {
    set i, t | 0 <= i < |models| && t in models[i].tasks && t in tasks :: models[i].name
  }

  /** The same for datasource rows against a model's task tuple. */
  function DatasourceNamesSharing(datasources: seq<DatasourceEntry>, tasks: seq<Task>): set<string> {
    set i, t | 0 <= i < |datasources| && t in DatasourceTasks(datasources[i]) && t in tasks :: datasources[i].name
  }

  /** The three masks `_compatible_models` applies, and the per-row test they amount to. */
  function ModelFormatMask(d: DatasourceEntry): ModelEntry -> bool { m => FormatMatches(m, d) }
  function ModelLabelMask(d: DatasourceEntry): ModelEntry -> bool { m => LabelsSuffice(m, d) }
  function ModelNameMask(names: set<string>): ModelEntry -> bool { (m: ModelEntry) => m.name in names }
  function CompatibleWith(d: DatasourceEntry): ModelEntry -> bool { m => Compatible(m, d) }

  /** The three masks `_compatible_datasources` applies, and the per-row test they amount to. */
  function DatasourceFormatMask(m: ModelEntry): DatasourceEntry -> bool { d => FormatMatches(m, d) }
  function DatasourceLabelMask(m: ModelEntry): DatasourceEntry -> bool { d => LabelsSuffice(m, d) }
  function DatasourceNameMask(names: set<string>): DatasourceEntry -> bool { (d: DatasourceEntry) => d.name in names }
  function CompatibleWithModel(m: ModelEntry): DatasourceEntry -> bool { d => Compatible(m, d) }

  /**
   * `_compatible_models`: the format mask, then the label mask, then the
   * task test, which keeps a row when its NAME is among the names sharing a
   * task with the datasource.
   */
  function CompatibleModelsOf(models: seq<ModelEntry>, d: DatasourceEntry): (r: seq<ModelEntry>)
    ensures forall m :: m in r ==> m in models && FormatMatches(m, d) && LabelsSuffice(m, d)
    ensures forall m :: m in r ==> exists i :: 0 <= i < |models| && models[i].name == m.name && SharesTask(models[i], d)
  {
    var byFormat := Filter(models, ModelFormatMask(d));
    var byLabels := Filter(byFormat, ModelLabelMask(d));
    Filter(byLabels, ModelNameMask(ModelNamesSharing(models, DatasourceTasks(d))))
  }

  /** A name that survives the task join belongs to a row sharing a task with the model. */
  lemma NamesSharingHaveSharer(datasources: seq<DatasourceEntry>, m: ModelEntry)
    ensures forall n :: n in DatasourceNamesSharing(datasources, m.tasks) ==>
      exists i :: 0 <= i < |datasources| && datasources[i].name == n && SharesTask(m, datasources[i])
  {
  }

  /** `_compatible_datasources`, the mirror image with the roles swapped. */
  function CompatibleDatasourcesOf(datasources: seq<DatasourceEntry>, m: ModelEntry): (r: seq<DatasourceEntry>)
    ensures forall d :: d in r ==> d in datasources && FormatMatches(m, d) && LabelsSuffice(m, d)
    ensures forall d :: d in r ==> exists i :: 0 <= i < |datasources| && datasources[i].name == d.name && SharesTask(m, datasources[i])
  {
    var byFormat := Filter(datasources, DatasourceFormatMask(m));
    var byLabels := Filter(byFormat, DatasourceLabelMask(m));
    NamesSharingHaveSharer(datasources, m);
    Filter(byLabels, DatasourceNameMask(DatasourceNamesSharing(datasources, m.tasks)))
  }

  /** With distinct model names, a row's name shares a task exactly when the row does. */
  lemma ModelNameTestIsRowTest(models: seq<ModelEntry>, d: DatasourceEntry, i: nat)
    requires Distinct(ModelNames(models)) && i < |models|
    ensures models[i].name in ModelNamesSharing(models, DatasourceTasks(d)) <==> SharesTask(models[i], d)
  {
    var names := ModelNames(models);
    if models[i].name in ModelNamesSharing(models, DatasourceTasks(d)) {
      var j, t :| 0 <= j < |models| && t in models[j].tasks && t in DatasourceTasks(d) && models[j].name == models[i].name;
      assert names[j] == names[i];
      assert j == i;
    }
    if SharesTask(models[i], d) {
      var t :| t in models[i].tasks && t in DatasourceTasks(d);
      assert models[i].name in ModelNamesSharing(models, DatasourceTasks(d));
    }
  }

  /** With distinct datasource names, a row's name shares a task exactly when the row does. */
  lemma DatasourceNameTestIsRowTest(datasources: seq<DatasourceEntry>, m: ModelEntry, i: nat)
    requires Distinct(DatasourceNames(datasources)) && i < |datasources|
    ensures datasources[i].name in DatasourceNamesSharing(datasources, m.tasks) <==> SharesTask(m, datasources[i])
  {
    var names := DatasourceNames(datasources);
    if datasources[i].name in DatasourceNamesSharing(datasources, m.tasks) {
      var j, t :| 0 <= j < |datasources| && t in DatasourceTasks(datasources[j]) && t in m.tasks && datasources[j].name == datasources[i].name;
      assert names[j] == names[i];
      assert j == i;
    }
    if SharesTask(m, datasources[i]) {
      var t :| t in m.tasks && t in DatasourceTasks(datasources[i]);
      assert datasources[i].name in DatasourceNamesSharing(datasources, m.tasks);
    }
  }

  /**
   * With distinct model names the name-based task test is the per-row one:
   * the result is exactly the rows compatible with the datasource, in table
   * order.
   */
  lemma CompatibleModelsExact(models: seq<ModelEntry>, d: DatasourceEntry)
    requires Distinct(ModelNames(models))
    ensures CompatibleModelsOf(models, d) == Filter(models, CompatibleWith(d))
  {
    var fmt, lbl := ModelFormatMask(d), ModelLabelMask(d);
    var tsk := ModelNameMask(ModelNamesSharing(models, DatasourceTasks(d)));
    var both := (m: ModelEntry) => FormatMatches(m, d) && LabelsSuffice(m, d);
    FilterTwice(models, fmt, lbl, both);
    forall i | 0 <= i < |models|
      ensures CompatibleWith(d)(models[i]) == (both(models[i]) && tsk(models[i]))
    {
      ModelNameTestIsRowTest(models, d, i);
    }
    FilterTwice(models, both, tsk, CompatibleWith(d));
  }

  /** The mirror of `CompatibleModelsExact` for datasource queries. */
  lemma CompatibleDatasourcesExact(datasources: seq<DatasourceEntry>, m: ModelEntry)
    requires Distinct(DatasourceNames(datasources))
    ensures CompatibleDatasourcesOf(datasources, m) == Filter(datasources, CompatibleWithModel(m))
  {
    var fmt, lbl := DatasourceFormatMask(m), DatasourceLabelMask(m);
    var tsk := DatasourceNameMask(DatasourceNamesSharing(datasources, m.tasks));
    var both := (d: DatasourceEntry) => FormatMatches(m, d) && LabelsSuffice(m, d);
    FilterTwice(datasources, fmt, lbl, both);
    forall i | 0 <= i < |datasources|
      ensures CompatibleWithModel(m)(datasources[i]) == (both(datasources[i]) && tsk(datasources[i]))
    {
      DatasourceNameTestIsRowTest(datasources, m, i);
    }
    FilterTwice(datasources, both, tsk, CompatibleWithModel(m));
  }

  /** A selection of rows of a table with distinct names repeats no name. */
  lemma FilterKeepsModelNamesDistinct(models: seq<ModelEntry>, keep: ModelEntry -> bool)
    requires Distinct(ModelNames(models))
    ensures Distinct(ModelNames(Filter(models, keep)))
  {
    var r, idx, names := Filter(models, keep), KeptIndices(models, keep), ModelNames(models);
    forall i, j | 0 <= i < j < |r| ensures r[i].name != r[j].name {
      assert names[idx[i]] != names[idx[j]];
    }
  }

  lemma FilterKeepsDatasourceNamesDistinct(datasources: seq<DatasourceEntry>, keep: DatasourceEntry -> bool)
    requires Distinct(DatasourceNames(datasources))
    ensures Distinct(DatasourceNames(Filter(datasources, keep)))
  {
    var r, idx, names := Filter(datasources, keep), KeptIndices(datasources, keep), DatasourceNames(datasources);
    forall i, j | 0 <= i < j < |r| ensures r[i].name != r[j].name {
      assert names[idx[i]] != names[idx[j]];
    }
  }

  /**
   * With distinct names, the models compatible with a datasource are exactly
   * the rows that pass all three tests, each once: every such row is found,
   * and no name comes back twice.
   */
  lemma CompatibleModelsComplete(models: seq<ModelEntry>, d: DatasourceEntry)
    requires Distinct(ModelNames(models))
    ensures forall m :: m in CompatibleModelsOf(models, d) <==> m in models && Compatible(m, d)
    ensures Distinct(ModelNames(CompatibleModelsOf(models, d)))
  {
    CompatibleModelsExact(models, d);
    FilterKeepsModelNamesDistinct(models, CompatibleWith(d));
  }

  /** The mirror of `CompatibleModelsComplete` for datasource queries. */
  lemma CompatibleDatasourcesComplete(datasources: seq<DatasourceEntry>, m: ModelEntry)
    requires Distinct(DatasourceNames(datasources))
    ensures forall d :: d in CompatibleDatasourcesOf(datasources, m) <==> d in datasources && Compatible(m, d)
    ensures Distinct(DatasourceNames(CompatibleDatasourcesOf(datasources, m)))
  {
    CompatibleDatasourcesExact(datasources, m);
    FilterKeepsDatasourceNamesDistinct(datasources, CompatibleWithModel(m));
  }

  /**
   * The two queries agree on every pair: a model is returned for a
   * datasource exactly when that datasource is returned for the model.
   */
  lemma CompatibilityIsMutual(models: seq<ModelEntry>, datasources: seq<DatasourceEntry>, m: ModelEntry, d: DatasourceEntry)
    requires Distinct(ModelNames(models)) && Distinct(DatasourceNames(datasources))
    requires m in models && d in datasources
    ensures m in CompatibleModelsOf(models, d) <==> d in CompatibleDatasourcesOf(datasources, m)
  {
    CompatibleModelsComplete(models, d);
    CompatibleDatasourcesComplete(datasources, m);
  }

  /** A datasource that declares no task is compatible with no model. */
  lemma NoTasksNoModels(models: seq<ModelEntry>, d: DatasourceEntry)
    requires DatasourceTasks(d) == {}
    ensures CompatibleModelsOf(models, d) == []
  {
    var byLabels := Filter(Filter(models, ModelFormatMask(d)), ModelLabelMask(d));
    assert ModelNamesSharing(models, DatasourceTasks(d)) == {};
    FilterNothing(byLabels, ModelNameMask({}));
  }

  /** A model that declares no task is compatible with no datasource. */
  lemma NoTasksNoDatasources(datasources: seq<DatasourceEntry>, m: ModelEntry)
    requires m.tasks == []
    ensures CompatibleDatasourcesOf(datasources, m) == []
  {
    var byLabels := Filter(Filter(datasources, DatasourceFormatMask(m)), DatasourceLabelMask(m));
    assert DatasourceNamesSharing(datasources, m.tasks) == {};
    FilterNothing(byLabels, DatasourceNameMask({}));
  }

  /**
   * A catalog of one model and one datasource: each query returns the
   * other entry exactly when the pair is compatible, and nothing otherwise.
   */
  lemma SinglePairCatalog(m: ModelEntry, d: DatasourceEntry)
    ensures CompatibleModelsOf([m], d) == (if Compatible(m, d) then [m] else [])
    ensures CompatibleDatasourcesOf([d], m) == (if Compatible(m, d) then [d] else [])
  {
    SingleModelQuery(m, d);
    SingleDatasourceQuery(m, d);
  }

  /** The model half of `SinglePairCatalog`. */
  lemma SingleModelQuery(m: ModelEntry, d: DatasourceEntry)
    ensures CompatibleModelsOf([m], d) == (if Compatible(m, d) then [m] else [])
  {
    assert CompatibleModelsOf([m], d) == Filter([m], CompatibleWith(d)) by {
      assert Distinct(ModelNames([m]));
      CompatibleModelsExact([m], d);
    }
    assert Filter([m], CompatibleWith(d)) == (if Compatible(m, d) then [m] else []) by {
      assert [m][..0] == [];
    }
  }

  /** The datasource half of `SinglePairCatalog`. */
  lemma SingleDatasourceQuery(m: ModelEntry, d: DatasourceEntry)
    ensures CompatibleDatasourcesOf([d], m) == (if Compatible(m, d) then [d] else [])
  {
    assert CompatibleDatasourcesOf([d], m) == Filter([d], CompatibleWithModel(m)) by {
      assert Distinct(DatasourceNames([d]));
      CompatibleDatasourcesExact([d], m);
    }
    assert Filter([d], CompatibleWithModel(m)) == (if Compatible(m, d) then [d] else []) by {
      assert [d][..0] == [];
    }
  }


  /** Keeps the models that do not require labels. */
  function LabelFree(): ModelEntry -> bool { (m: ModelEntry) => !m.labelsRequired }

  /**
   * Label asymmetry: withdrawing a datasource's labels removes exactly the
   * models that require labels from its result, and nothing else.
   */
  lemma WithdrawingLabelsDropsLabelRequiringModels(models: seq<ModelEntry>, d: DatasourceEntry)
    ensures CompatibleModelsOf(models, d.(labelsProvided := false))
         == Filter(CompatibleModelsOf(models, d.(labelsProvided := true)), LabelFree())
  {
    QueryWithoutLabels(models, d);
    LabelFreeOfQueryWithLabels(models, d);
  }

  /** Keeps the label-free models of format `d.format` named in `names`. */
  function LabelFreeMatch(d: DatasourceEntry, names: set<string>): ModelEntry -> bool {
    (m: ModelEntry) => FormatMatches(m, d) && !m.labelsRequired && m.name in names
  }

  /** Without labels, the query keeps the label-free, format- and task-matching models. */
  lemma QueryWithoutLabels(models: seq<ModelEntry>, d: DatasourceEntry)
    ensures CompatibleModelsOf(models, d.(labelsProvided := false))
         == Filter(models, LabelFreeMatch(d, ModelNamesSharing(models, DatasourceTasks(d))))
  {
    var dF := d.(labelsProvided := false);
    var names := ModelNamesSharing(models, DatasourceTasks(d));
    assert ModelNamesSharing(models, DatasourceTasks(dF)) == names;
    var fmtFree := (m: ModelEntry) => FormatMatches(m, d) && !m.labelsRequired;
    FilterTwice(models, ModelFormatMask(dF), ModelLabelMask(dF), fmtFree);
    FilterTwice(models, fmtFree, ModelNameMask(names), LabelFreeMatch(d, names));
  }

  /** With labels, the label-free models of the result are the same selection. */
  lemma LabelFreeOfQueryWithLabels(models: seq<ModelEntry>, d: DatasourceEntry)
    ensures Filter(CompatibleModelsOf(models, d.(labelsProvided := true)), LabelFree())
         == Filter(models, LabelFreeMatch(d, ModelNamesSharing(models, DatasourceTasks(d))))
  {
    var dT := d.(labelsProvided := true);
    var names := ModelNamesSharing(models, DatasourceTasks(d));
    assert ModelNamesSharing(models, DatasourceTasks(dT)) == names;
    var fmtNamed := (m: ModelEntry) => FormatMatches(m, d) && m.name in names;
    FilterTwice(models, ModelFormatMask(dT), ModelLabelMask(dT), ModelFormatMask(d));
    FilterTwice(models, ModelFormatMask(d), ModelNameMask(names), fmtNamed);
    FilterTwice(models, fmtNamed, LabelFree(), LabelFreeMatch(d, names));
  }

  // ---------------------------------------------------------------------
  // The label mask for a record whose `labels_required` is a Python bool
  // ---------------------------------------------------------------------

  /** A Python `bool` used as an int. */
  function BoolAsInt(b: bool): int {
    if b then 1 else 0
  }

  /** Python's `~` on an int: the two's-complement bitwise not. */
  function Invert(x: int): (r: int)
    ensures r < 0 <==> x >= 0
  {
    -x - 1
  }

  /**
   * Two's-complement bitwise or of a `bool`, used as 0 or 1, with an int:
   * only the lowest bit can change.
   */
  function OrBit(b: bool, y: int): (r: int)
    ensures r == y || (r == y + 1 && y % 2 == 0)
  {
    if b && y % 2 == 0 then y + 1 else y
  }

  /**
   * The label mask `_compatible_datasources` builds when `model["labels_required"]`
   * is a plain Python `bool`, as it is for a `CatalogModelEntry` or a dict:
   * `~` then gives the int -1 or -2, the or with the `labels_provided`
   * column is taken bitwise, and the int result is cast back to `bool`, so a
   * row is kept when it is non-zero.
   */
  function PlainBoolLabelMask(m: ModelEntry): DatasourceEntry -> bool {
    (d: DatasourceEntry) => OrBit(d.labelsProvided, Invert(BoolAsInt(m.labelsRequired))) != 0
  }

  /** `_compatible_datasources` as written, for a record with a plain `bool`. */
  function CompatibleDatasourcesOfPlainRecord(datasources: seq<DatasourceEntry>, m: ModelEntry): (r: seq<DatasourceEntry>)
    ensures forall d :: d in r ==> d in datasources && FormatMatches(m, d)
  {
    var byFormat := Filter(datasources, DatasourceFormatMask(m));
    var byLabels := Filter(byFormat, PlainBoolLabelMask(m));
    Filter(byLabels, DatasourceNameMask(DatasourceNamesSharing(datasources, m.tasks)))
  }

  /** The plain-`bool` mask keeps every row: -1 and -2 or'ed with 0 or 1 are never 0. */
  lemma PlainBoolLabelMaskKeepsAll(m: ModelEntry, d: DatasourceEntry)
    ensures PlainBoolLabelMask(m)(d)
  {
    var y := Invert(BoolAsInt(m.labelsRequired));
    assert y < 0;
  }

  /**
   * As written, a plain-`bool` record gets no label test at all: the result
   * is the format and task filters alone.
   */
  lemma PlainRecordSkipsLabelTest(datasources: seq<DatasourceEntry>, m: ModelEntry)
    ensures CompatibleDatasourcesOfPlainRecord(datasources, m)
         == Filter(Filter(datasources, DatasourceFormatMask(m)), DatasourceNameMask(DatasourceNamesSharing(datasources, m.tasks)))
  {
    var byFormat := Filter(datasources, DatasourceFormatMask(m));
    forall i | 0 <= i < |byFormat| ensures PlainBoolLabelMask(m)(byFormat[i]) {
      PlainBoolLabelMaskKeepsAll(m, byFormat[i]);
    }
    FilterEverything(byFormat, PlainBoolLabelMask(m));
  }

  /**
   * The discrepancy: a model record that requires labels, and a datasource
   * of its format and task that provides none. As written the datasource is
   * returned; the intended rule, `CompatibleDatasourcesOf`, returns nothing.
   */
  lemma PlainRecordIgnoresLabels(m: ModelEntry, d: DatasourceEntry)
    requires m.labelsRequired && !d.labelsProvided
    requires FormatMatches(m, d) && SharesTask(m, d)
    ensures CompatibleDatasourcesOfPlainRecord([d], m) == [d]
    ensures CompatibleDatasourcesOf([d], m) == []
  {
    PlainRecordSkipsLabelTest([d], m);
    FilterOne(d, DatasourceFormatMask(m));
    SharerIsNamed(m, d);
    FilterOne(d, DatasourceNameMask(DatasourceNamesSharing([d], m.tasks)));
    SingleDatasourceQuery(m, d);
  }

  /** A datasource sharing a task with the model survives the task join of its own one-row table. */
  lemma SharerIsNamed(m: ModelEntry, d: DatasourceEntry)
    requires SharesTask(m, d)
    ensures d.name in DatasourceNamesSharing([d], m.tasks)
  {
    var t :| t in m.tasks && t in DatasourceTasks(d);
    assert [d][0] == d;
  }

  /** Keeps the rows named `key`. */
  function DatasourceNamed(key: string): DatasourceEntry -> bool { (d: DatasourceEntry) => d.name == key }
  function ModelNamed(key: string): ModelEntry -> bool { (m: ModelEntry) => m.name == key }

  /** In a table with distinct names, the rows named after row i are row i alone. */
  lemma {:induction false} OnlyRowNamed<T(!new)>(rows: seq<T>, names: seq<string>, named: T -> bool, i: nat)
    requires |names| == |rows| && Distinct(names) && i < |rows|
    requires forall j :: 0 <= j < |rows| ==> named(rows[j]) == (names[j] == names[i])
    ensures Filter(rows, named) == [rows[i]]
  {
    var n := |rows| - 1;
    var init := rows[..n];
    assert Filter(rows, named) == Filter(init, named) + (if named(rows[n]) then [rows[n]] else []);
    if i == n {
      forall j | 0 <= j < n ensures !named(init[j]) {
        assert init[j] == rows[j] && names[j] != names[n];
      }
      FilterNothing(init, named);
    } else {
      var pre := names[..n];
      assert names[n] != names[i];
      forall j | 0 <= j < n ensures named(init[j]) == (pre[j] == pre[i]) {
        assert init[j] == rows[j] && pre[j] == names[j];
      }
      forall a, b | 0 <= a < b < n ensures pre[a] != pre[b] {
        assert pre[a] == names[a] && pre[b] == names[b];
      }
      OnlyRowNamed(init, pre, named, i);
    }
  }

  /** The single row named `key`; no row, or several, is an error. */
  function FindDatasource(rows: seq<DatasourceEntry>, key: string): (r: Result<DatasourceEntry, CatalogError>)
    ensures r.Ok? ==> r.value in rows && r.value.name == key
    ensures key !in DatasourceNames(rows) ==> r == Err(NotFound(key))
    ensures Distinct(DatasourceNames(rows)) ==>
      forall i :: 0 <= i < |rows| && rows[i].name == key ==> r == Ok(rows[i])
  {
    var hits := Filter(rows, DatasourceNamed(key));
    assert Distinct(DatasourceNames(rows)) ==>
      forall i :: 0 <= i < |rows| && rows[i].name == key ==> hits == [rows[i]] by {
      if Distinct(DatasourceNames(rows)) {
        forall i | 0 <= i < |rows| && rows[i].name == key ensures hits == [rows[i]] {
          OnlyRowNamed(rows, DatasourceNames(rows), DatasourceNamed(key), i);
        }
      }
    }
    if |hits| == 0 then Err(NotFound(key))
    else if |hits| == 1 then Ok(hits[0])
    else Err(AmbiguousName(key))
  }

  /** The single model row named `key`; no row, or several, is an error. */
  function FindModel(rows: seq<ModelEntry>, key: string): (r: Result<ModelEntry, CatalogError>)
    ensures r.Ok? ==> r.value in rows && r.value.name == key
    ensures key !in ModelNames(rows) ==> r == Err(NotFound(key))
    ensures Distinct(ModelNames(rows)) ==>
      forall i :: 0 <= i < |rows| && rows[i].name == key ==> r == Ok(rows[i])
  {
    var hits := Filter(rows, ModelNamed(key));
    assert Distinct(ModelNames(rows)) ==>
      forall i :: 0 <= i < |rows| && rows[i].name == key ==> hits == [rows[i]] by {
      if Distinct(ModelNames(rows)) {
        forall i | 0 <= i < |rows| && rows[i].name == key ensures hits == [rows[i]] {
          OnlyRowNamed(rows, ModelNames(rows), ModelNamed(key), i);
        }
      }
    }
    if |hits| == 0 then Err(NotFound(key))
    else if |hits| == 1 then Ok(hits[0])
    else Err(AmbiguousName(key))
  }

  /** A query argument: a name to look up in the other table, or a record. */
  datatype Query<R> = ByName(key: string) | ByRecord(record: R)

  /**
   * `set_index("name").loc[key]` on a datasource table: a table without
   * columns has no `name` column to index by (a KeyError).
   */
  function LookupDatasource(table: Table<DatasourceEntry>, key: string): (r: Result<DatasourceEntry, CatalogError>)
    ensures table.NoColumns? ==> r == Err(MissingColumns(DatasourceKind))
    ensures table.Rows? ==> r == FindDatasource(table.rows, key)
  {
    match table
    case NoColumns => Err(MissingColumns(DatasourceKind))
    case Rows(rows) => FindDatasource(rows, key)
  }

  /** The same lookup in a model table. */
  function LookupModel(table: Table<ModelEntry>, key: string): (r: Result<ModelEntry, CatalogError>)
    ensures table.NoColumns? ==> r == Err(MissingColumns(ModelKind))
    ensures table.Rows? ==> r == FindModel(table.rows, key)
  {
    match table
    case NoColumns => Err(MissingColumns(ModelKind))
    case Rows(rows) => FindModel(rows, key)
  }

  /** The catalog object: two tables, fixed once it is built. */
  class PandasCatalog {
    const datasources: Table<DatasourceEntry>
    const models: Table<ModelEntry>

    constructor (datasources: Table<DatasourceEntry>, models: Table<ModelEntry>)
      ensures this.datasources == datasources && this.models == models
    {
      this.datasources := datasources;
      this.models := models;
    }

    /**
     * Builds a catalog from its two arguments, the datasources first; the
     * first table that cannot be built decides the error.
     */
    static method Open(datasources: DatasourceSource, models: ModelSource)
      returns (r: Result<PandasCatalog, CatalogError>)
      ensures r.Ok? <==> DatasourceTable(datasources).Ok? && ModelTable(models).Ok?
      ensures DatasourceTable(datasources).Err? ==> r == Err(DatasourceTable(datasources).error)
      ensures DatasourceTable(datasources).Ok? && ModelTable(models).Err? ==> r == Err(ModelTable(models).error)
      ensures r.Ok? ==> fresh(r.value)
      ensures r.Ok? ==> r.value.datasources == DatasourceTable(datasources).value
      ensures r.Ok? ==> r.value.models == ModelTable(models).value
    {
      var ds := DatasourceTable(datasources);
      if ds.Err? {
        return Err(ds.error);
      }
      var ms := ModelTable(models);
      if ms.Err? {
        return Err(ms.error);
      }
      var c := new PandasCatalog(ds.value, ms.value);
      return Ok(c);
    }

    /**
     * `compatible_models`: a name is looked up among the datasources and
     * answers as that row would; a missing name is an error. The query reads
     * the `format` column of the model table, so a model table without
     * columns fails however the datasource is given.
     */
    function CompatibleModels(datasource: Query<DatasourceEntry>): (r: Result<seq<ModelEntry>, CatalogError>)
      ensures datasource.ByRecord? ==>
        r == if models.Rows? then Ok(CompatibleModelsOf(models.rows, datasource.record)) else Err(MissingColumns(ModelKind))
      ensures datasource.ByName? && datasources.NoColumns? ==> r == Err(MissingColumns(DatasourceKind))
      ensures datasource.ByName? && datasources.Rows? && datasource.key !in DatasourceNames(datasources.rows) ==>
        r == Err(NotFound(datasource.key))
      ensures datasource.ByName? && datasources.Rows? && Distinct(DatasourceNames(datasources.rows)) ==>
        forall d :: d in datasources.rows && d.name == datasource.key ==>
          r == if models.Rows? then Ok(CompatibleModelsOf(models.rows, d)) else Err(MissingColumns(ModelKind))
      ensures r.Ok? && datasource.ByName? ==> datasources.Rows?
      ensures models.NoColumns? ==> r.Err?
    {
      var found := match datasource
        case ByRecord(d) => Ok(d)
        case ByName(key) => LookupDatasource(datasources, key);
      match found
      case Err(e) => Err(e)
      case Ok(d) =>
        match models
        case NoColumns => Err(MissingColumns(ModelKind))
        case Rows(rows) => Ok(CompatibleModelsOf(rows, d))
    }

    /**
     * `compatible_datasources`, the mirror image: it reads the `format`
     * column of the datasource table.
     */
    function CompatibleDatasources(model: Query<ModelEntry>): (r: Result<seq<DatasourceEntry>, CatalogError>)
      ensures model.ByRecord? ==>
        r == if datasources.Rows? then Ok(CompatibleDatasourcesOf(datasources.rows, model.record))
             else Err(MissingColumns(DatasourceKind))
      ensures model.ByName? && models.NoColumns? ==> r == Err(MissingColumns(ModelKind))
      ensures model.ByName? && models.Rows? && model.key !in ModelNames(models.rows) ==>
        r == Err(NotFound(model.key))
      ensures model.ByName? && models.Rows? && Distinct(ModelNames(models.rows)) ==>
        forall m :: m in models.rows && m.name == model.key ==>
          r == if datasources.Rows? then Ok(CompatibleDatasourcesOf(datasources.rows, m))
               else Err(MissingColumns(DatasourceKind))
      ensures r.Ok? && model.ByName? ==> models.Rows?
      ensures datasources.NoColumns? ==> r.Err?
    {
      var found := match model
        case ByRecord(m) => Ok(m)
        case ByName(key) => LookupModel(models, key);
      match found
      case Err(e) => Err(e)
      case Ok(m) =>
        match datasources
        case NoColumns => Err(MissingColumns(DatasourceKind))
        case Rows(rows) => Ok(CompatibleDatasourcesOf(rows, m))
    }
  }

  /**
   * The two empty tables differ: queried with any datasource record, a
   * table of models with columns but no rows answers with no models, while
   * the table built from a document with no entries fails.
   */
  lemma EmptyTablesDiffer(ds: Table<DatasourceEntry>, d: DatasourceEntry, withColumns: PandasCatalog, fromNoEntries: PandasCatalog)
    requires withColumns.models == Rows([]) && fromNoEntries.models == NoColumns
    ensures withColumns.CompatibleModels(ByRecord(d)) == Ok([])
    ensures fromNoEntries.CompatibleModels(ByRecord(d)) == Err(MissingColumns(ModelKind))
  {
    assert Filter([], ModelFormatMask(d)) == [];
  }
}

=== FILE: reader.dfy ===
/**
 * The string and dictionary logic of `scivision/io/reader.py`: rewriting a
 * GitHub browsing URL into a raw-content URL, splitting or selecting model
 * configurations, and completing a repository path to its config file.
 */
module Reader {
  import opened Wrappers
  import opened Strings

  // ---------------------------------------------------------------------
  // `_parse_url`
  // ---------------------------------------------------------------------

  /** The six components `urllib.parse.urlparse` yields. */
  datatype Url = Url(scheme: string, netloc: string, path: string, params: string, query: string, fragment: string)

  const GitHubHost := "github.com"
  const RawHost := "raw.githubusercontent.com"
  const BlobMarker := "/blob"

  /** `list(filter(None, path.split("/")))`: the non-empty segments of a path. */
  function Segments(path: string): (segs: seq<string>)
    ensures forall i :: 0 <= i < |segs| ==> segs[i] != "" && '/' !in segs[i]
  {
    var pieces := Split(path, '/');
    assert forall x :: x in pieces ==> '/' !in x;
    NonEmptyPiecesMembers(pieces);
    NonEmptyPieces(pieces)
  }

  /** How many leading segments (owner, repository) come before an inserted branch. */
  function OwnerRepoCount(segs: seq<string>): (k: nat)
    ensures k <= |segs| && (k == 2 || k == |segs|)
  {
    if |segs| < 2 then |segs| else 2
  }

  /** The path `_parse_url` assembles before it deletes "/blob". */
  function AssembledPath(segs: seq<string>, branch: string): string {
    if branch !in segs then
      var k := OwnerRepoCount(segs);
      Join(segs[..k], '/') + "/" + branch + "/" + Join(segs[k..], '/')
    else
      Join(segs, '/')
  }

  /**
   * A URL with `github.com` as its host becomes a raw-content URL: the host
   * is swapped and the path rebuilt; any other URL is returned as it is.
   */
  function ParseUrl(u: Url, branch: string): (r: Url)
    ensures u.netloc != GitHubHost ==> r == u
    ensures u.netloc == GitHubHost ==> r.netloc == RawHost && r == u.(netloc := RawHost, path := r.path)
  {
    if u.netloc != GitHubHost then u
    else u.(netloc := RawHost, path := RemoveAll(AssembledPath(Segments(u.path), branch), BlobMarker))
  }

  /** The assembled path as a list of segments joined by "/". */
  function AssembledSegments(segs: seq<string>, branch: string): (z: seq<string>)
    ensures z != []
  {
    if branch !in segs then
      var k := OwnerRepoCount(segs);
      (if k == 0 then [""] else segs[..k]) + [branch] + (if k == |segs| then [""] else segs[k..])
    else
      segs
  }

  lemma AssembledPathIsJoin(segs: seq<string>, branch: string)
    ensures AssembledPath(segs, branch) == Join(AssembledSegments(segs, branch), '/')
  {
    if branch !in segs {
      var k := OwnerRepoCount(segs);
      var front := if k == 0 then [""] else segs[..k];
      var back := if k == |segs| then [""] else segs[k..];
      assert Join(front, '/') == Join(segs[..k], '/');
      assert Join(back, '/') == Join(segs[k..], '/');
      JoinAppend(front, [branch], '/');
      JoinAppend(front + [branch], back, '/');
      assert Join(segs[..k], '/') + "/" + branch + "/" + Join(segs[k..], '/')
          == Join(front, '/') + ['/'] + branch + ['/'] + Join(back, '/');
    }
  }

  /** A segment the "/blob" deletion cannot touch: it does not begin with "blob". */
  predicate BlobFree(seg: string) {
    !StartsWith(seg, "blob")
  }

  lemma BlobFreeByFirstChar(seg: string)
    requires seg == [] || seg[0] != 'b'
    ensures BlobFree(seg)
  {
    if |seg| >= 4 {
      assert seg[..4][0] == seg[0];
    }
  }

  /** A segment the deletion handles segment-wise: the word "blob" itself, or a blob-free one. */
  predicate BlobSafe(seg: string) {
    seg == "blob" || BlobFree(seg)
  }

  /** The segments other than "blob", in order. */
  function WithoutBlob(segs: seq<string>): seq<string> {
    if segs == [] then []
    else (if segs[0] == "blob" then [] else [segs[0]]) + WithoutBlob(segs[1..])
  }

  /** The segments kept are exactly those other than "blob". */
  lemma {:induction false} WithoutBlobMembers(segs: seq<string>)
    ensures forall x :: x in WithoutBlob(segs) <==> x in segs && x != "blob"
  {
    if segs != [] {
      WithoutBlobMembers(segs[1..]);
      assert forall x :: x in segs <==> x == segs[0] || x in segs[1..];
    }
  }

  lemma WithoutBlobKeepsBlobFree(segs: seq<string>)
    requires forall i :: 0 <= i < |segs| ==> BlobFree(segs[i])
    ensures WithoutBlob(segs) == segs
  {
    forall i | 0 <= i < |segs| ensures segs[i] != "blob" {
      NotBlobWhenBlobFree(segs[i]);
    }
    WithoutBlobKeepsOthers(segs);
  }

  lemma {:induction false} WithoutBlobKeepsOthers(segs: seq<string>)
    requires forall i :: 0 <= i < |segs| ==> segs[i] != "blob"
    ensures WithoutBlob(segs) == segs
  {
    if segs != [] {
      WithoutBlobKeepsOthers(segs[1..]);
    }
  }

  /** Deleting "/blob" from "/"-prefixed segments drops exactly the "blob" segments. */
  lemma {:induction false} RemoveBlobFromPrefixed(rest: seq<string>)
    requires forall i :: 0 <= i < |rest| ==> '/' !in rest[i] && BlobSafe(rest[i])
    ensures RemoveAll(Prefixed(rest, '/'), BlobMarker) == Prefixed(WithoutBlob(rest), '/')
  {
    if rest != [] {
      var r0, tail := rest[0], Prefixed(rest[1..], '/');
      RemoveBlobFromPrefixed(rest[1..]);
      if r0 == "blob" {
        var s := BlobMarker + tail;
        assert Prefixed(rest, '/') == ['/'] + r0 + tail == s;
        assert s[..|BlobMarker|] == BlobMarker && s[|BlobMarker|..] == tail;
        assert RemoveAll(s, BlobMarker) == RemoveAll(tail, BlobMarker);
        assert WithoutBlob(rest) == WithoutBlob(rest[1..]);
      } else {
        assert Prefixed(rest, '/') == "/" + r0 + tail;
        SlashSegmentKept(r0, tail);
        assert Prefixed(WithoutBlob(rest), '/') == "/" + r0 + Prefixed(WithoutBlob(rest[1..]), '/');
      }
    }
  }

  /** A slash and a blob-free segment followed by nothing or a slash lose nothing to the deletion. */
  lemma SlashSegmentKept(seg: string, tail: string)
    requires '/' !in seg && BlobFree(seg) && (tail == [] || tail[0] == '/')
    ensures RemoveAll("/" + seg + tail, BlobMarker) == "/" + seg + RemoveAll(tail, BlobMarker)
  {
    var a := "/" + seg;
    var s := a + tail;
    forall i | 0 <= i < |a| && i + |BlobMarker| <= |s|
      ensures !StartsWith(s[i..], BlobMarker)
    {
      if i == 0 {
        NoMarkerAtSlash(seg, tail);
      } else {
        assert s[i..][0] == seg[i - 1];
      }
    }
    RemoveAllKeepsPrefix(a, tail, BlobMarker);
  }

  /** No "/blob" starts at the slash before a blob-free segment followed by nothing or a slash. */
  lemma NoMarkerAtSlash(seg: string, tail: string)
    requires '/' !in seg && BlobFree(seg) && (tail == [] || tail[0] == '/')
    ensures !StartsWith("/" + seg + tail, BlobMarker)
  {
    var s := "/" + seg + tail;
    if |BlobMarker| <= |s| {
      if |seg| >= 4 {
        assert s[1..5] == seg[..4];
        assert s[..5][1..] == s[1..5];
      } else {
        assert s[1 + |seg|] == '/';
        assert s[..5][1 + |seg|] == s[1 + |seg|];
      }
    }
  }

  /**
   * When no segment after the first merely begins with "blob", deleting
   * "/blob" from the joined path drops the segments equal to "blob" and
   * leaves every other segment as it is.
   */
  lemma RemoveBlobBySegment(segs: seq<string>)
    requires |segs| >= 1
    requires forall i :: 0 <= i < |segs| ==> '/' !in segs[i]
    requires forall i :: 1 <= i < |segs| ==> BlobSafe(segs[i])
    ensures RemoveAll(Join(segs, '/'), BlobMarker) == Join([segs[0]] + WithoutBlob(segs[1..]), '/')
  {
    var rest := segs[1..];
    JoinIsHeadThenPrefixed(segs, '/');
    NoMatchInPrefixWithoutHead(segs[0], Prefixed(rest, '/'), BlobMarker);
    RemoveAllKeepsPrefix(segs[0], Prefixed(rest, '/'), BlobMarker);
    forall i | 0 <= i < |rest| ensures '/' !in rest[i] && BlobSafe(rest[i]) {
      assert rest[i] == segs[i + 1];
    }
    RemoveBlobFromPrefixed(rest);
    JoinIsHeadThenPrefixed([segs[0]] + WithoutBlob(rest), '/');
    assert ([segs[0]] + WithoutBlob(rest))[1..] == WithoutBlob(rest);
  }

  /**
   * A property of every segment after the owner, of the branch and of the
   * empty string holds of every assembled segment after the first; the
   * first is the owner, or empty when there is none.
   */
  lemma AssembledSegmentsKeep(segs: seq<string>, branch: string, p: string -> bool)
    requires p("") && p(branch)
    requires forall i :: 1 <= i < |segs| ==> p(segs[i])
    ensures var z := AssembledSegments(segs, branch);
      (forall i :: 1 <= i < |z| ==> p(z[i])) && z[0] == (if segs == [] then "" else segs[0])
  {
    var z := AssembledSegments(segs, branch);
    if branch !in segs {
      var k := OwnerRepoCount(segs);
      var front := if k == 0 then [""] else segs[..k];
      var back := if k == |segs| then [""] else segs[k..];
      assert z == front + [branch] + back;
      forall i | 1 <= i < |z| ensures p(z[i]) {
        if i < |front| {
          assert z[i] == segs[i];
        } else if i > |front| && k < |segs| {
          assert z[i] == segs[k + i - |front| - 1];
        }
      }
    }
  }

  /** With no segment after the owner beginning with "blob", deleting "/blob" changes nothing. */
  lemma CleanPathIsAssembledJoin(u: Url, branch: string)
    requires u.netloc == GitHubHost
    requires '/' !in branch && BlobFree(branch)
    requires forall i :: 1 <= i < |Segments(u.path)| ==> BlobFree(Segments(u.path)[i])
    ensures ParseUrl(u, branch).path == Join(AssembledSegments(Segments(u.path), branch), '/')
  {
    var segs := Segments(u.path);
    var z := AssembledSegments(segs, branch);
    AssembledPathIsJoin(segs, branch);
    AssembledSegmentsKeep(segs, branch, (s: string) => '/' !in s);
    AssembledSegmentsKeep(segs, branch, BlobFree);
    assert forall i :: 0 <= i < |z| ==> '/' !in z[i];
    RemoveBlobBySegment(z);
    WithoutBlobKeepsBlobFree(z[1..]);
    assert [z[0]] + z[1..] == z;
  }

  /** An empty list padded with one empty piece loses the pad again. */
  lemma NonEmptyPiecesOfPadded(xs: seq<string>)
    requires forall i :: 0 <= i < |xs| ==> xs[i] != ""
    ensures NonEmptyPieces(if xs == [] then [""] else xs) == xs
  {
    if xs != [] {
      NonEmptyPiecesKeepsAll(xs);
    }
  }

  /** The non-empty assembled segments: the branch sits after owner and repository. */
  lemma AssembledSegmentsInsertBranch(segs: seq<string>, branch: string)
    requires forall i :: 0 <= i < |segs| ==> segs[i] != ""
    requires branch != "" && branch !in segs
    ensures var k := OwnerRepoCount(segs);
      NonEmptyPieces(AssembledSegments(segs, branch)) == segs[..k] + [branch] + segs[k..]
  {
    var k := OwnerRepoCount(segs);
    var xs, ys := segs[..k], segs[k..];
    var front := if xs == [] then [""] else xs;
    var back := if ys == [] then [""] else ys;
    assert AssembledSegments(segs, branch) == front + [branch] + back;
    NonEmptyPiecesAppend(front + [branch], back);
    NonEmptyPiecesAppend(front, [branch]);
    NonEmptyPiecesKeepsAll([branch]);
    NonEmptyPiecesOfPadded(xs);
    NonEmptyPiecesOfPadded(ys);
  }

  /**
   * Clean URLs: when the branch is not among the segments and no segment
   * after the owner begins with "blob", the raw path holds the segments
   * with the branch inserted after owner and repository and nothing else
   * changed. With more than two segments the path is exactly that join.
   */
  lemma ParseUrlInsertsBranch(u: Url, branch: string)
    requires u.netloc == GitHubHost
    requires branch != "" && '/' !in branch && BlobFree(branch)
    requires branch !in Segments(u.path)
    requires forall i :: 1 <= i < |Segments(u.path)| ==> BlobFree(Segments(u.path)[i])
    ensures var segs := Segments(u.path); var k := OwnerRepoCount(segs);
      Segments(ParseUrl(u, branch).path) == segs[..k] + [branch] + segs[k..]
    ensures var segs := Segments(u.path);
      |segs| > 2 ==> ParseUrl(u, branch).path == Join(segs[..2] + [branch] + segs[2..], '/')
  {
    var segs := Segments(u.path);
    var z := AssembledSegments(segs, branch);
    CleanPathIsAssembledJoin(u, branch);
    AssembledSegmentsKeep(segs, branch, (s: string) => '/' !in s);
    assert forall i :: 0 <= i < |z| ==> '/' !in z[i];
    SplitJoin(z, '/');
    AssembledSegmentsInsertBranch(segs, branch);
  }

  /** Dropping "blob" from the browser segments leaves owner, repository, branch and the rest. */
  lemma BrowserSegmentsWithoutBlob(segs: seq<string>, branch: string)
    requires |segs| > 2 && BlobFree(branch)
    requires forall i :: 1 <= i < |segs| ==> BlobFree(segs[i])
    ensures var t := segs[..2] + ["blob", branch] + segs[2..];
      [t[0]] + WithoutBlob(t[1..]) == segs[..2] + [branch] + segs[2..]
  {
    var rest := segs[2..];
    forall i | 0 <= i < |rest| ensures rest[i] != "blob" {
      assert rest[i] == segs[i + 2];
      NotBlobWhenBlobFree(segs[i + 2]);
    }
    NotBlobWhenBlobFree(segs[1]);
    NotBlobWhenBlobFree(branch);
    BrowserTailWithoutBlob(segs[1], branch, rest);
    BrowserSegmentsShape(segs, branch);
  }

  /** The browser segments after the owner, with "blob" in front of the branch. */
  lemma BrowserSegmentsShape(segs: seq<string>, branch: string)
    requires |segs| > 2
    ensures var t := segs[..2] + ["blob", branch] + segs[2..];
      t[0] == segs[0] && t[1..] == [segs[1]] + (["blob"] + ([branch] + segs[2..])) &&
      segs[..2] + [branch] + segs[2..] == [segs[0]] + ([segs[1]] + ([branch] + segs[2..]))
  {
    assert segs[..2] == [segs[0], segs[1]];
  }

  /** Repository, "blob", branch and the rest lose only "blob" when no other segment is "blob". */
  lemma BrowserTailWithoutBlob(repo: string, branch: string, rest: seq<string>)
    requires repo != "blob" && branch != "blob"
    requires forall i :: 0 <= i < |rest| ==> rest[i] != "blob"
    ensures WithoutBlob([repo] + (["blob"] + ([branch] + rest))) == [repo] + ([branch] + rest)
  {
    var tail := [branch] + rest;
    WithoutBlobKeepsOthers(rest);
    WithoutBlobCons(branch, rest);
    assert WithoutBlob(tail) == tail;
    WithoutBlobCons("blob", tail);
    assert WithoutBlob(["blob"] + tail) == tail;
    WithoutBlobCons(repo, ["blob"] + tail);
  }

  /** A blob-free segment is not the word "blob". */
  lemma NotBlobWhenBlobFree(seg: string)
    requires BlobFree(seg)
    ensures seg != "blob"
  {
    assert StartsWith("blob", "blob");
  }

  /** One step of `WithoutBlob`: the first segment is kept unless it is "blob". */
  lemma WithoutBlobCons(x: string, rest: seq<string>)
    ensures WithoutBlob([x] + rest) == (if x == "blob" then [] else [x]) + WithoutBlob(rest)
  {
    assert ([x] + rest)[1..] == rest;
  }

  /**
   * A URL copied from the browser, with "blob" and the branch after owner and
   * repository, gives the same raw URL as the plain repository URL.
   */
  lemma BrowserUrlMatchesPlainUrl(u: Url, browserPath: string, branch: string)
    requires u.netloc == GitHubHost
    requires branch != "" && '/' !in branch && BlobFree(branch)
    requires |Segments(u.path)| > 2 && branch !in Segments(u.path)
    requires forall i :: 1 <= i < |Segments(u.path)| ==> BlobFree(Segments(u.path)[i])
    requires Segments(browserPath) == Segments(u.path)[..2] + ["blob", branch] + Segments(u.path)[2..]
    ensures ParseUrl(u.(path := browserPath), branch) == ParseUrl(u, branch)
  {
    ParseUrlInsertsBranch(u, branch);
    BrowserSegmentsRaw(Segments(u.path), branch);
  }

  /** The browser segments, assembled and stripped of "/blob", give the plain segments with the branch inserted. */
  lemma BrowserSegmentsRaw(segs: seq<string>, branch: string)
    requires |segs| > 2 && '/' !in branch && BlobFree(branch)
    requires forall i :: 0 <= i < |segs| ==> '/' !in segs[i]
    requires forall i :: 1 <= i < |segs| ==> BlobFree(segs[i])
    ensures var t := segs[..2] + ["blob", branch] + segs[2..];
      RemoveAll(AssembledPath(t, branch), BlobMarker) == Join(segs[..2] + [branch] + segs[2..], '/')
  {
    var t := segs[..2] + ["blob", branch] + segs[2..];
    BrowserSegmentsSafe(segs, branch);
    assert branch in t by { assert t[3] == branch; }
    AssembledPathIsJoin(t, branch);
    RemoveBlobBySegment(t);
    BrowserSegmentsWithoutBlob(segs, branch);
  }

  /** Every browser segment is "/"-free, and each after the owner is "blob" or blob-free. */
  lemma BrowserSegmentsSafe(segs: seq<string>, branch: string)
    requires |segs| > 2 && '/' !in branch && BlobFree(branch)
    requires forall i :: 0 <= i < |segs| ==> '/' !in segs[i]
    requires forall i :: 1 <= i < |segs| ==> BlobFree(segs[i])
    ensures var t := segs[..2] + ["blob", branch] + segs[2..];
      |t| >= 1 && (forall i :: 0 <= i < |t| ==> '/' !in t[i]) &&
      forall i :: 1 <= i < |t| ==> BlobSafe(t[i])
  {
    var t := segs[..2] + ["blob", branch] + segs[2..];
    forall i | 0 <= i < |t| ensures '/' !in t[i] && (i >= 1 ==> BlobSafe(t[i])) {
      if i < 2 {
        assert t[i] == segs[i];
      } else if i > 3 {
        assert t[i] == segs[i - 2];
      }
    }
  }

  /** The segments of a path written as "/" followed by its non-empty, "/"-free segments. */
  lemma SegmentsOfJoinedPath(path: string, segs: seq<string>)
    requires forall i :: 0 <= i < |segs| ==> segs[i] != "" && '/' !in segs[i]
    requires path == Join([""] + segs, '/')
    ensures Segments(path) == segs
  {
    SplitJoin([""] + segs, '/');
    assert ([""] + segs)[1..] == segs;
    NonEmptyPiecesKeepsAll(segs);
  }

  /** A plain file URL: the branch goes after owner and repository. */
  lemma PlainFileUrl(u: Url, branch: string, segs: seq<string>)
    requires |segs| > 2 && forall i :: 0 <= i < |segs| ==> segs[i] != "" && '/' !in segs[i]
    requires forall i :: 1 <= i < |segs| ==> BlobFree(segs[i])
    requires branch != "" && '/' !in branch && BlobFree(branch) && branch !in segs
    requires u.netloc == GitHubHost && u.path == Join([""] + segs, '/')
    ensures ParseUrl(u, branch) == u.(netloc := RawHost, path := Join(segs[..2] + [branch] + segs[2..], '/'))
  {
    SegmentsOfJoinedPath(u.path, segs);
    ParseUrlInsertsBranch(u, branch);
  }

  /** The same file URL copied from the browser, with "blob" and the branch after the repository. */
  lemma BrowserFileUrl(u: Url, branch: string, segs: seq<string>)
    requires |segs| > 2 && forall i :: 0 <= i < |segs| ==> segs[i] != "" && '/' !in segs[i]
    requires forall i :: 1 <= i < |segs| ==> BlobFree(segs[i])
    requires branch != "" && '/' !in branch && BlobFree(branch) && branch !in segs
    requires u.netloc == GitHubHost && u.path == Join([""] + segs[..2] + ["blob", branch] + segs[2..], '/')
    ensures ParseUrl(u, branch) == u.(netloc := RawHost, path := Join(segs[..2] + [branch] + segs[2..], '/'))
  {
    var plain := u.(path := Join([""] + segs, '/'));
    PlainFileUrl(plain, branch, segs);
    SegmentsOfJoinedPath(plain.path, segs);
    var browser := segs[..2] + ["blob", branch] + segs[2..];
    BrowserSegmentsNonEmpty(segs, branch);
    SegmentsOfJoinedPath(u.path, browser);
    BrowserUrlMatchesPlainUrl(plain, u.path, branch);
    assert plain.(path := u.path) == u;
  }

  /** The browser segments of a file URL are non-empty and "/"-free, like the plain ones. */
  lemma BrowserSegmentsNonEmpty(segs: seq<string>, branch: string)
    requires |segs| > 2 && forall i :: 0 <= i < |segs| ==> segs[i] != "" && '/' !in segs[i]
    requires branch != "" && '/' !in branch
    ensures var browser := segs[..2] + ["blob", branch] + segs[2..];
      [""] + browser == [""] + segs[..2] + ["blob", branch] + segs[2..] &&
      forall i :: 0 <= i < |browser| ==> browser[i] != "" && '/' !in browser[i]
  {
    var browser := segs[..2] + ["blob", branch] + segs[2..];
    forall i | 0 <= i < |browser| ensures browser[i] != "" && '/' !in browser[i] {
      if i < 2 {
        assert browser[i] == segs[i];
      } else if i > 3 {
        assert browser[i] == segs[i - 2];
      }
    }
  }

  /** The segments of the repository file the tests use are non-empty, "/"-free and blob-free. */
  lemma TestFileSegments(segs: seq<string>)
    requires segs == ["alan-turing-institute", "scivision", "tests", "test_reader.py"]
    ensures |segs| > 2 && forall i :: 0 <= i < |segs| ==> segs[i] != "" && '/' !in segs[i]
    ensures forall i :: 1 <= i < |segs| ==> BlobFree(segs[i])
    ensures "main" !in segs && "test-branch" !in segs
  {
    forall i | 1 <= i < |segs| ensures BlobFree(segs[i]) {
      BlobFreeByFirstChar(segs[i]);
    }
  }

  /** The branches the tests use are non-empty, "/"-free and blob-free. */
  lemma TestBranch(branch: string)
    requires branch == "main" || branch == "test-branch"
    ensures branch != "" && '/' !in branch && BlobFree(branch)
  {
    BlobFreeByFirstChar(branch);
  }

  /**
   * A plain repository file URL, github.com/alan-turing-institute/scivision/tests/test_reader.py,
   * gets the branch after owner and repository, for the default and another branch.
   */
  lemma RawUrlOfRepositoryFile(u: Url, branch: string, segs: seq<string>)
    requires segs == ["alan-turing-institute", "scivision", "tests", "test_reader.py"]
    requires u.netloc == GitHubHost && u.path == Join([""] + segs, '/')
    requires branch == "main" || branch == "test-branch"
    ensures ParseUrl(u, branch) == u.(netloc := RawHost, path := Join(segs[..2] + [branch] + segs[2..], '/'))
  {
    TestFileSegments(segs);
    TestBranch(branch);
    PlainFileUrl(u, branch, segs);
  }

  /** The same file copied from the browser, with "blob/main" after the repository, gives the same raw URL. */
  lemma RawUrlOfBrowserUrl(u: Url, segs: seq<string>)
    requires segs == ["alan-turing-institute", "scivision", "tests", "test_reader.py"]
    requires u.netloc == GitHubHost && u.path == Join([""] + segs[..2] + ["blob", "main"] + segs[2..], '/')
    ensures ParseUrl(u, "main") == u.(netloc := RawHost, path := Join(segs[..2] + ["main"] + segs[2..], '/'))
  {
    TestFileSegments(segs);
    TestBranch("main");
    BrowserFileUrl(u, "main", segs);
  }

  /** `_parse_url` with "/blob" removed by segment: only segments equal to "blob" are dropped. */
  function ParseUrlBySegment(u: Url, branch: string): (r: Url)
    ensures u.netloc != GitHubHost ==> r == u
    ensures u.netloc == GitHubHost ==> r.netloc == RawHost && r == u.(netloc := RawHost, path := r.path)
  {
    if u.netloc != GitHubHost then u
    else
      var z := AssembledSegments(Segments(u.path), branch);
      u.(netloc := RawHost, path := Join([z[0]] + WithoutBlob(z[1..]), '/'))
  }

  /**
   * On every URL that `ParseUrl` already handles segment-wise (no segment
   * after the owner merely begins with "blob"), the two agree.
   */
  lemma ParseUrlBySegmentAgrees(u: Url, branch: string)
    requires '/' !in branch && BlobSafe(branch)
    requires forall i :: 1 <= i < |Segments(u.path)| ==> BlobSafe(Segments(u.path)[i])
    ensures ParseUrlBySegment(u, branch) == ParseUrl(u, branch)
  {
    if u.netloc == GitHubHost {
      var segs := Segments(u.path);
      var z := AssembledSegments(segs, branch);
      AssembledPathIsJoin(segs, branch);
      AssembledSegmentsKeep(segs, branch, (s: string) => '/' !in s);
      AssembledSegmentsKeep(segs, branch, BlobSafe);
      assert forall i :: 0 <= i < |z| ==> '/' !in z[i];
      RemoveBlobBySegment(z);
    }
  }

  /**
   * The corrected rewrite keeps every segment except the word "blob": the
   * raw path holds the owner, then the repository, the branch and the rest
   * with only "blob" segments left out.
   */
  lemma ParseUrlBySegmentKeepsSegments(u: Url, branch: string)
    requires u.netloc == GitHubHost
    requires branch != "" && '/' !in branch
    requires |Segments(u.path)| > 2 && branch !in Segments(u.path)
    ensures var segs := Segments(u.path);
      Segments(ParseUrlBySegment(u, branch).path) == [segs[0]] + WithoutBlob([segs[1], branch] + segs[2..])
  {
    var segs := Segments(u.path);
    var z := AssembledSegments(segs, branch);
    assert z == [segs[0]] + ([segs[1], branch] + segs[2..]);
    assert z[1..] == [segs[1], branch] + segs[2..];
    var kept := [segs[0]] + WithoutBlob(z[1..]);
    forall i | 0 <= i < |kept| ensures '/' !in kept[i] && kept[i] != "" {
      if i > 0 {
        WithoutBlobMembers(z[1..]);
        assert kept[i] in WithoutBlob(z[1..]);
        assert kept[i] in z[1..];
      }
    }
    SplitJoin(kept, '/');
    NonEmptyPiecesKeepsAll(kept);
  }

  /** The path "/owner/blobs" has the segments "owner" and "blobs". */
  lemma OwnerBlobsSegments(path: string)
    requires path == "/owner/blobs"
    ensures Segments(path) == ["owner", "blobs"]
  {
    assert path == Join(["", "owner", "blobs"], '/');
    SplitJoin(["", "owner", "blobs"], '/');
  }

  /** The repository "blobs" is glued onto its owner: "/owner/blobs" becomes "owners/main/". */
  lemma BlobPrefixedRepositoryIsMangled(u: Url)
    requires u.netloc == GitHubHost && u.path == "/owner/blobs"
    ensures ParseUrl(u, "main").path == "owners/main/"
  {
    OwnerBlobsSegments(u.path);
    OwnerBlobsAssembled(["owner", "blobs"]);
    BlobFreeByFirstChar("main");
    GluedRepository("owner", "s", "main");
    OwnersMain("owner" + "s" + "/" + "main" + "/");
  }

  /** The assembled path for owner "owner", repository "blobs" and branch "main". */
  lemma OwnerBlobsAssembled(segs: seq<string>)
    requires segs == ["owner", "blobs"]
    ensures AssembledPath(segs, "main") == "owner" + BlobMarker + "s" + "/" + "main" + "/"
  {
    assert segs[..2] == segs && segs[2..] == [];
    assert Join(segs, '/') == "owner/blobs";
  }

  /** The glued path written out. */
  lemma OwnersMain(s: string)
    requires s == "owner" + "s" + "/" + "main" + "/"
    ensures s == "owners/main/"
  {
  }

  /** A repository whose name begins with "blob" loses that prefix and is glued onto its owner. */
  lemma GluedRepository(owner: string, rest: string, branch: string)
    requires '/' !in owner && '/' !in rest && '/' !in branch && BlobFree(branch)
    ensures RemoveAll(owner + BlobMarker + rest + "/" + branch + "/", BlobMarker) == owner + rest + "/" + branch + "/"
  {
    var t := rest + "/" + branch + "/";
    assert owner + BlobMarker + rest + "/" + branch + "/" == owner + BlobMarker + t;
    RemoveAllDeletesAfterPrefix(owner, BlobMarker, t);
    RemoveAllKeepsBranchTail(rest, branch);
  }

  /** A piece, then a blob-free branch between slashes, has nothing to delete. */
  lemma RemoveAllKeepsBranchTail(x: string, branch: string)
    requires '/' !in x && '/' !in branch && BlobFree(branch)
    ensures RemoveAll(x + "/" + branch + "/", BlobMarker) == x + "/" + branch + "/"
  {
    var t := "/" + branch + "/";
    assert x + "/" + branch + "/" == x + t;
    NoMatchInPrefixWithoutHead(x, t, BlobMarker);
    RemoveAllKeepsPrefix(x, t, BlobMarker);
    SlashSegmentKept(branch, "/");
  }

  /** The corrected rewrite keeps the repository "blobs" as its own segment. */
  lemma BlobPrefixedRepositoryIsKept(u: Url)
    requires u.netloc == GitHubHost && u.path == "/owner/blobs"
    ensures Segments(ParseUrlBySegment(u, "main").path) == ["owner", "blobs", "main"]
  {
    OwnerBlobsSegments(u.path);
    TwoSegmentsKept(u, "main");
  }

  /**
   * The corrected rewrite of an owner/repository URL whose repository is not
   * the word "blob" appends the branch and keeps both segments.
   */
  lemma TwoSegmentsKept(u: Url, branch: string)
    requires u.netloc == GitHubHost && |Segments(u.path)| == 2 && Segments(u.path)[1] != "blob"
    requires branch != "" && branch != "blob" && '/' !in branch && branch !in Segments(u.path)
    ensures Segments(ParseUrlBySegment(u, branch).path) == Segments(u.path) + [branch]
  {
    var kept := Segments(u.path) + [branch];
    var z := kept + [""];
    TwoSegmentsPath(u, branch);
    assert forall i :: 0 <= i < |z| ==> '/' !in z[i];
    SplitJoin(z, '/');
    NonEmptyPiecesAppend(kept, [""]);
    NonEmptyPiecesKeepsAll(kept);
  }

  /** The corrected path of an owner/repository URL: both segments, the branch and a trailing empty piece. */
  lemma TwoSegmentsPath(u: Url, branch: string)
    requires u.netloc == GitHubHost && |Segments(u.path)| == 2 && Segments(u.path)[1] != "blob"
    requires branch != "blob" && branch !in Segments(u.path)
    ensures ParseUrlBySegment(u, branch).path == Join(Segments(u.path) + [branch] + [""], '/')
  {
    var segs := Segments(u.path);
    var z := AssembledSegments(segs, branch);
    assert z == segs + [branch] + [""];
    assert |z| == 4 && z[1] == segs[1] && z[2] == branch && z[3] == "";
    forall i | 0 <= i < |z| - 1 ensures z[1..][i] != "blob" {
      assert z[1..][i] == z[i + 1];
    }
    WithoutBlobKeepsOthers(z[1..]);
    assert [z[0]] + z[1..] == z;
  }

  // ---------------------------------------------------------------------
  // Branch names with "/"
  // ---------------------------------------------------------------------

  /** The segments a branch name contributes to a path: its "/"-separated pieces. */
  function BranchPieces(branch: string): (p: seq<string>)
    ensures |p| >= 1 && forall i :: 0 <= i < |p| ==> '/' !in p[i]
    ensures Join(p, '/') == branch
  {
    JoinSplit(branch, '/');
    Split(branch, '/')
  }

  /** A branch name without "/" is a single piece. */
  lemma SlashFreeBranchIsOnePiece(branch: string)
    requires '/' !in branch
    ensures BranchPieces(branch) == [branch]
  {
    SplitJoin([branch], '/');
  }

  /** Dropping "blob" segments distributes over concatenation. */
  lemma {:induction false} WithoutBlobAppend(xs: seq<string>, ys: seq<string>)
    ensures WithoutBlob(xs + ys) == WithoutBlob(xs) + WithoutBlob(ys)
  {
    if xs == [] {
      assert xs + ys == ys;
    } else {
      var head := if xs[0] == "blob" then [] else [xs[0]];
      assert (xs + ys)[0] == xs[0] && (xs + ys)[1..] == xs[1..] + ys;
      WithoutBlobAppend(xs[1..], ys);
      assert WithoutBlob(xs + ys) == head + (WithoutBlob(xs[1..]) + WithoutBlob(ys));
      assert WithoutBlob(xs) == head + WithoutBlob(xs[1..]);
    }
  }

  /** Two runs without a "blob" segment lose nothing when joined. */
  lemma WithoutBlobKeepsRuns(xs: seq<string>, ys: seq<string>)
    requires "blob" !in xs && "blob" !in ys
    ensures WithoutBlob(xs + ys) == xs + ys
  {
    WithoutBlobKeepsOthers(xs);
    WithoutBlobKeepsOthers(ys);
    WithoutBlobAppend(xs, ys);
  }

  /** A single "blob" between two runs without one is all that is dropped. */
  lemma WithoutOneBlob(xs: seq<string>, ys: seq<string>)
    requires "blob" !in xs && "blob" !in ys
    ensures WithoutBlob(xs + (["blob"] + ys)) == xs + ys
  {
    WithoutBlobKeepsOthers(xs);
    WithoutBlobKeepsOthers(ys);
    WithoutBlobCons("blob", ys);
    assert WithoutBlob(["blob"] + ys) == ys;
    WithoutBlobAppend(xs, ["blob"] + ys);
  }

  /** Segments none of which begins with "blob". */
  predicate CleanRun(segs: seq<string>) {
    forall i :: 0 <= i < |segs| ==> BlobFree(segs[i])
  }

  /** A clean run has no "blob" segment. */
  lemma CleanRunHasNoBlob(segs: seq<string>)
    requires CleanRun(segs)
    ensures "blob" !in segs
  {
    forall i | 0 <= i < |segs| ensures segs[i] != "blob" {
      NotBlobWhenBlobFree(segs[i]);
    }
  }

  /** Different lists of "/"-free segments join to different paths. */
  lemma JoinsDiffer(xs: seq<string>, ys: seq<string>)
    requires |xs| >= 1 && forall i :: 0 <= i < |xs| ==> '/' !in xs[i]
    requires |ys| >= 1 && forall i :: 0 <= i < |ys| ==> '/' !in ys[i]
    requires xs != ys
    ensures Join(xs, '/') != Join(ys, '/')
  {
    SplitJoin(xs, '/');
    SplitJoin(ys, '/');
  }

  /**
   * When the branch is inserted, its text sits in the path like the pieces
   * it is made of: the assembled path joins the segments with the branch's
   * pieces after owner and repository.
   */
  lemma AssembledPathOfPieces(segs: seq<string>, branch: string)
    requires |segs| > 2 && branch !in segs
    ensures AssembledPath(segs, branch) == Join(segs[..2] + BranchPieces(branch) + segs[2..], '/')
  {
    var p := BranchPieces(branch);
    JoinAppend(segs[..2], p, '/');
    JoinAppend(segs[..2] + p, segs[2..], '/');
  }

  /** Owner and repository, then pieces, then the rest: every segment of three "/"-free runs is "/"-free. */
  lemma InsertedRunSlashFree(xs: seq<string>, p: seq<string>, ys: seq<string>)
    requires forall i :: 0 <= i < |xs| ==> '/' !in xs[i]
    requires forall i :: 0 <= i < |p| ==> '/' !in p[i]
    requires forall i :: 0 <= i < |ys| ==> '/' !in ys[i]
    ensures var z := xs + p + ys; forall i :: 0 <= i < |z| ==> '/' !in z[i]
  {
    var z := xs + p + ys;
    forall i | 0 <= i < |z| ensures '/' !in z[i] {
      if i < |xs| {
        assert z[i] == xs[i];
      } else if i < |xs| + |p| {
        assert z[i] == p[i - |xs|];
      } else {
        assert z[i] == ys[i - |xs| - |p|];
      }
    }
  }

  /** Pieces inserted after owner and repository keep every segment after the owner safe for the deletion. */
  lemma InsertedRunSafe(segs: seq<string>, p: seq<string>)
    requires |segs| >= 2
    requires forall i :: 1 <= i < |segs| ==> BlobSafe(segs[i])
    requires forall i :: 0 <= i < |p| ==> BlobSafe(p[i])
    ensures var z := segs[..2] + p + segs[2..]; forall i :: 1 <= i < |z| ==> BlobSafe(z[i])
  {
    var z := segs[..2] + p + segs[2..];
    forall i | 1 <= i < |z| ensures BlobSafe(z[i]) {
      if i < 2 {
        assert z[i] == segs[i];
      } else if i < 2 + |p| {
        assert z[i] == p[i - 2];
      } else {
        assert z[i] == segs[i - |p|];
      }
    }
  }

  /**
   * The rewrite of a path of more than two segments that does not hold the
   * branch, for any branch name: the branch's pieces are inserted after
   * owner and repository, then the segments equal to "blob" are dropped.
   * This holds when no segment after the owner and no piece of the branch
   * merely begins with "blob".
   */
  lemma ParseUrlInsertsPieces(u: Url, branch: string)
    requires u.netloc == GitHubHost
    requires |Segments(u.path)| > 2 && branch !in Segments(u.path)
    requires forall i :: 1 <= i < |Segments(u.path)| ==> BlobSafe(Segments(u.path)[i])
    requires forall i :: 0 <= i < |BranchPieces(branch)| ==> BlobSafe(BranchPieces(branch)[i])
    ensures var segs := Segments(u.path);
      ParseUrl(u, branch).path == Join([segs[0]] + WithoutBlob([segs[1]] + BranchPieces(branch) + segs[2..]), '/')
  {
    var segs, p := Segments(u.path), BranchPieces(branch);
    var z := segs[..2] + p + segs[2..];
    AssembledPathOfPieces(segs, branch);
    InsertedRunSlashFree(segs[..2], p, segs[2..]);
    InsertedRunSafe(segs, p);
    RemoveBlobBySegment(z);
    assert z[0] == segs[0] && z[1..] == [segs[1]] + p + segs[2..];
  }

  /** A branch name with "/" in it is none of the "/"-free segments of a path. */
  lemma SlashBranchIsNoSegment(path: string, branch: string)
    requires '/' in branch
    ensures branch !in Segments(path)
  {
  }

  /** Every segment after the owner of a path whose tail is clean is safe for the deletion. */
  lemma CleanTailIsSafe(segs: seq<string>)
    requires |segs| >= 1 && CleanRun(segs[1..])
    ensures forall i :: 1 <= i < |segs| ==> BlobSafe(segs[i])
  {
    forall i | 1 <= i < |segs| ensures BlobSafe(segs[i]) {
      assert segs[1..][i - 1] == segs[i];
    }
  }

  /** Inserting clean pieces into a path with a clean tail: nothing is dropped. */
  lemma CleanInsertionKept(segs: seq<string>, p: seq<string>)
    requires |segs| > 2 && CleanRun(segs[1..]) && CleanRun(p)
    ensures [segs[0]] + WithoutBlob([segs[1]] + p + segs[2..]) == segs[..2] + p + segs[2..]
  {
    CleanRunHasNoBlob(segs[1..]);
    CleanRunHasNoBlob(p);
    assert segs[1..] == [segs[1]] + segs[2..];
    WithoutBlobKeepsRuns([segs[1]] + p, segs[2..]);
  }

  /** The plain URL of more than two clean segments gets a "/"-holding branch once. */
  lemma SlashBranchPlainPath(u: Url, branch: string)
    requires u.netloc == GitHubHost && '/' in branch
    requires |Segments(u.path)| > 2 && CleanRun(Segments(u.path)[1..]) && CleanRun(BranchPieces(branch))
    ensures var segs := Segments(u.path);
      ParseUrl(u, branch).path == Join(segs[..2] + BranchPieces(branch) + segs[2..], '/')
  {
    var segs, p := Segments(u.path), BranchPieces(branch);
    SlashBranchIsNoSegment(u.path, branch);
    CleanTailIsSafe(segs);
    ParseUrlInsertsPieces(u, branch);
    CleanInsertionKept(segs, p);
  }

  /** The browser segments around a branch's pieces: a clean tail with one "blob" after the repository. */
  lemma BrowserPiecesSafe(segs: seq<string>, p: seq<string>)
    requires |segs| > 2 && CleanRun(segs[1..]) && CleanRun(p)
    ensures var t := segs[..2] + ["blob"] + p + segs[2..];
      |t| > 2 && forall i :: 1 <= i < |t| ==> BlobSafe(t[i])
  {
    var t := segs[..2] + ["blob"] + p + segs[2..];
    forall i | 1 <= i < |t| ensures BlobSafe(t[i]) {
      if i < 2 {
        assert t[i] == segs[1..][0];
      } else if 2 < i < 3 + |p| {
        assert t[i] == p[i - 3];
      } else if i >= 3 + |p| {
        assert t[i] == segs[1..][i - |p| - 2];
      }
    }
  }

  /** Inserting the pieces into the browser segments, then dropping "blob", gives the pieces twice. */
  lemma BrowserInsertionRepeats(segs: seq<string>, p: seq<string>)
    requires |segs| > 2 && CleanRun(segs[1..]) && CleanRun(p)
    ensures var t := segs[..2] + ["blob"] + p + segs[2..];
      [t[0]] + WithoutBlob([t[1]] + p + t[2..]) == segs[..2] + p + p + segs[2..]
  {
    var t := segs[..2] + ["blob"] + p + segs[2..];
    CleanRunHasNoBlob(segs[1..]);
    CleanRunHasNoBlob(p);
    assert segs[1..] == [segs[1]] + segs[2..];
    assert t[0] == segs[0] && t[1] == segs[1] && t[2..] == ["blob"] + (p + segs[2..]);
    assert [t[1]] + p + t[2..] == ([segs[1]] + p) + (["blob"] + (p + segs[2..]));
    WithoutOneBlob([segs[1]] + p, p + segs[2..]);
  }

  /** The browser URL with a "/"-holding branch after "blob" gets the branch a second time. */
  lemma SlashBranchBrowserPath(u: Url, browserPath: string, branch: string)
    requires u.netloc == GitHubHost && '/' in branch
    requires |Segments(u.path)| > 2 && CleanRun(Segments(u.path)[1..]) && CleanRun(BranchPieces(branch))
    requires Segments(browserPath) == Segments(u.path)[..2] + ["blob"] + BranchPieces(branch) + Segments(u.path)[2..]
    ensures var segs, p := Segments(u.path), BranchPieces(branch);
      ParseUrl(u.(path := browserPath), branch).path == Join(segs[..2] + p + p + segs[2..], '/')
  {
    var segs, p := Segments(u.path), BranchPieces(branch);
    SlashBranchIsNoSegment(browserPath, branch);
    BrowserPiecesSafe(segs, p);
    ParseUrlInsertsPieces(u.(path := browserPath), branch);
    BrowserInsertionRepeats(segs, p);
  }

  /**
   * A branch name with "/" in it never equals a segment, so `_parse_url`
   * inserts it even into a browser URL that already names it after "blob":
   * the raw path then holds the branch twice, and differs from the raw path
   * of the plain URL, which holds it once.
   */
  lemma SlashBranchIsRepeated(u: Url, browserPath: string, branch: string)
    requires u.netloc == GitHubHost && '/' in branch
    requires |Segments(u.path)| > 2 && CleanRun(Segments(u.path)[1..]) && CleanRun(BranchPieces(branch))
    requires Segments(browserPath) == Segments(u.path)[..2] + ["blob"] + BranchPieces(branch) + Segments(u.path)[2..]
    ensures var segs, p := Segments(u.path), BranchPieces(branch);
      ParseUrl(u.(path := browserPath), branch).path == Join(segs[..2] + p + p + segs[2..], '/') &&
      ParseUrl(u, branch).path == Join(segs[..2] + p + segs[2..], '/')
    ensures ParseUrl(u.(path := browserPath), branch) != ParseUrl(u, branch)
  {
    var segs, p := Segments(u.path), BranchPieces(branch);
    SlashBranchPlainPath(u, branch);
    SlashBranchBrowserPath(u, browserPath, branch);
    InsertedRunSlashFree(segs[..2], p, segs[2..]);
    InsertedRunSlashFree(segs[..2] + p, p, segs[2..]);
    assert |segs[..2] + p + p + segs[2..]| == |segs[..2] + p + segs[2..]| + |p|;
    JoinsDiffer(segs[..2] + p + segs[2..], segs[..2] + p + p + segs[2..]);
  }

  /** Whether `pieces` occur in `segs` as consecutive segments from index `i` on. */
  predicate RunAt(segs: seq<string>, pieces: seq<string>, i: int) {
    0 <= i && i + |pieces| <= |segs| && segs[i..i + |pieces|] == pieces
  }

  /** Whether `pieces` occur in `segs` as consecutive segments. */
  predicate HasRun(segs: seq<string>, pieces: seq<string>) {
    exists i :: 0 <= i <= |segs| - |pieces| && RunAt(segs, pieces, i)
  }

  /**
   * The segments the corrected rewrite assembles: the branch's pieces go
   * after owner and repository unless the path already holds them as
   * consecutive segments.
   */
  function AssembledPieces(segs: seq<string>, pieces: seq<string>): (z: seq<string>)
    requires pieces != []
    ensures z != []
  {
    if !HasRun(segs, pieces) then
      var k := OwnerRepoCount(segs);
      (if k == 0 then [""] else segs[..k]) + pieces + (if k == |segs| then [""] else segs[k..])
    else
      segs
  }

  /**
   * `_parse_url` with both corrections: a branch the path already names, as
   * one segment or as the consecutive pieces of a "/"-holding name, is not
   * inserted again, and only segments equal to "blob" are dropped.
   */
  function ParseUrlByPieces(u: Url, branch: string): (r: Url)
    ensures u.netloc != GitHubHost ==> r == u
    ensures u.netloc == GitHubHost ==> r.netloc == RawHost && r == u.(netloc := RawHost, path := r.path)
  {
    if u.netloc != GitHubHost then u
    else
      var z := AssembledPieces(Segments(u.path), BranchPieces(branch));
      u.(netloc := RawHost, path := Join([z[0]] + WithoutBlob(z[1..]), '/'))
  }

  /** A one-piece run occurs exactly where its piece is a segment. */
  lemma OnePieceRun(segs: seq<string>, x: string)
    ensures HasRun(segs, [x]) <==> x in segs
  {
    if x in segs {
      var i :| 0 <= i < |segs| && segs[i] == x;
      assert segs[i..i + 1] == [x];
      assert RunAt(segs, [x], i);
    }
    if HasRun(segs, [x]) {
      var i :| 0 <= i <= |segs| - 1 && RunAt(segs, [x], i);
      assert segs[i] == segs[i..i + 1][0];
    }
  }

  /** For a branch name without "/", the corrected rewrite is the segment-wise one. */
  lemma ParseUrlByPiecesAgrees(u: Url, branch: string)
    requires '/' !in branch
    ensures ParseUrlByPieces(u, branch) == ParseUrlBySegment(u, branch)
  {
    SlashFreeBranchIsOnePiece(branch);
    OnePieceRun(Segments(u.path), branch);
    assert AssembledPieces(Segments(u.path), [branch]) == AssembledSegments(Segments(u.path), branch);
  }

  /** The browser segments already hold the pieces, right after "blob". */
  lemma BrowserHoldsPieces(segs: seq<string>, p: seq<string>)
    requires |segs| >= 2 && p != []
    ensures AssembledPieces(segs[..2] + ["blob"] + p + segs[2..], p) == segs[..2] + ["blob"] + p + segs[2..]
  {
    var t := segs[..2] + ["blob"] + p + segs[2..];
    assert t[3..3 + |p|] == p;
    assert RunAt(t, p, 3);
  }

  /**
   * With the pieces inserted into the plain segments, and the browser
   * segments kept, dropping "blob" after the owner gives the same list.
   */
  lemma BrowserAndPlainSegmentsMeet(segs: seq<string>, p: seq<string>)
    requires |segs| > 2
    ensures var t, z := segs[..2] + ["blob"] + p + segs[2..], segs[..2] + p + segs[2..];
      [t[0]] + WithoutBlob(t[1..]) == [z[0]] + WithoutBlob(z[1..])
  {
    var t, z := segs[..2] + ["blob"] + p + segs[2..], segs[..2] + p + segs[2..];
    assert t[1..] == [segs[1]] + (["blob"] + (p + segs[2..]));
    assert z[1..] == [segs[1]] + (p + segs[2..]);
    WithoutBlobAppend([segs[1]], ["blob"] + (p + segs[2..]));
    WithoutBlobAppend([segs[1]], p + segs[2..]);
    WithoutBlobCons("blob", p + segs[2..]);
  }

  /**
   * Corrected, a browser URL with "blob" and the branch's pieces after owner
   * and repository gives the same raw URL as the plain one, for any branch
   * name, "/" or not, that the plain path does not already hold.
   */
  lemma BrowserUrlMatchesPlainUrlByPieces(u: Url, browserPath: string, branch: string)
    requires u.netloc == GitHubHost
    requires |Segments(u.path)| > 2 && !HasRun(Segments(u.path), BranchPieces(branch))
    requires Segments(browserPath) == Segments(u.path)[..2] + ["blob"] + BranchPieces(branch) + Segments(u.path)[2..]
    ensures ParseUrlByPieces(u.(path := browserPath), branch) == ParseUrlByPieces(u, branch)
  {
    var segs, p := Segments(u.path), BranchPieces(branch);
    BrowserHoldsPieces(segs, p);
    assert AssembledPieces(segs, p) == segs[..2] + p + segs[2..];
    BrowserAndPlainSegmentsMeet(segs, p);
  }

  /** The branch of the "/"-holding example, `feature/x`, has two pieces. */
  lemma ExampleBranchPieces(branch: string)
    requires branch == "feature/x"
    ensures BranchPieces(branch) == ["feature", "x"]
  {
    assert branch == Join(["feature", "x"], '/');
    SplitJoin(["feature", "x"], '/');
  }

  /** The segments after the owner and the branch pieces of the example are clean. */
  lemma ExampleIsClean(tail: seq<string>, p: seq<string>)
    requires tail == ["r", "a"] && p == ["feature", "x"]
    ensures CleanRun(tail) && CleanRun(p)
  {
    BlobFreeByFirstChar("r");
    BlobFreeByFirstChar("a");
    BlobFreeByFirstChar("feature");
    BlobFreeByFirstChar("x");
  }

  /** The example's segments, `o/r/a` and the same with "blob" and the pieces of `feature/x` spliced in, are well formed. */
  lemma ExampleSegments(segs: seq<string>, p: seq<string>)
    requires segs == ["o", "r", "a"] && p == ["feature", "x"]
    ensures |segs| > 2 && forall i :: 0 <= i < |segs| ==> segs[i] != "" && '/' !in segs[i]
    ensures var t := segs[..2] + ["blob"] + p + segs[2..];
      forall i :: 0 <= i < |t| ==> t[i] != "" && '/' !in t[i]
  {
  }

  /**
   * As written, `github.com/o/r/blob/feature/x/a` with branch `feature/x`
   * becomes `o/r/feature/x/feature/x/a`, while `github.com/o/r/a` becomes
   * `o/r/feature/x/a`.
   */
  lemma FeatureBranchIsRepeated(u: Url, browserPath: string, segs: seq<string>, branch: string)
    requires segs == ["o", "r", "a"] && branch == "feature/x"
    requires u.netloc == GitHubHost && u.path == Join([""] + segs, '/')
    requires browserPath == Join([""] + segs[..2] + ["blob", "feature", "x"] + segs[2..], '/')
    ensures ParseUrl(u.(path := browserPath), branch).path == Join(segs[..2] + ["feature", "x", "feature", "x"] + segs[2..], '/')
    ensures ParseUrl(u, branch).path == Join(segs[..2] + ["feature", "x"] + segs[2..], '/')
  {
    var p := ["feature", "x"];
    ExampleSegments(segs, p);
    assert segs[..2] + ["feature", "x", "feature", "x"] + segs[2..] == segs[..2] + p + p + segs[2..];
    SegmentsOfJoinedPath(u.path, segs);
    assert [""] + segs[..2] + ["blob", "feature", "x"] + segs[2..] == [""] + (segs[..2] + ["blob"] + p + segs[2..]);
    SegmentsOfJoinedPath(browserPath, segs[..2] + ["blob"] + p + segs[2..]);
    ExampleBranchPieces(branch);
    assert segs[1..] == ["r", "a"];
    ExampleIsClean(segs[1..], p);
    SlashBranchIsRepeated(u, browserPath, branch);
  }

  /** Corrected, both URLs of the example become `o/r/feature/x/a`. */
  lemma FeatureBranchIsKeptOnce(u: Url, browserPath: string, segs: seq<string>, branch: string)
    requires segs == ["o", "r", "a"] && branch == "feature/x"
    requires u.netloc == GitHubHost && u.path == Join([""] + segs, '/')
    requires browserPath == Join([""] + segs[..2] + ["blob", "feature", "x"] + segs[2..], '/')
    ensures ParseUrlByPieces(u.(path := browserPath), branch) == ParseUrlByPieces(u, branch)
    ensures ParseUrlByPieces(u, branch).path == Join(segs[..2] + ["feature", "x"] + segs[2..], '/')
  {
    var p := ["feature", "x"];
    ExampleSegments(segs, p);
    SegmentsOfJoinedPath(u.path, segs);
    assert [""] + segs[..2] + ["blob", "feature", "x"] + segs[2..] == [""] + (segs[..2] + ["blob"] + p + segs[2..]);
    SegmentsOfJoinedPath(browserPath, segs[..2] + ["blob"] + p + segs[2..]);
    ExampleBranchPieces(branch);
    assert segs[1..] == ["r", "a"];
    ExampleIsClean(segs[1..], p);
    CleanRunHasNoBlob(segs[1..]);
    CleanRunHasNoBlob(p);
    assert !RunAt(segs, p, 0) by { assert segs[0] != p[0]; }
    assert !RunAt(segs, p, 1) by { assert segs[1] != p[0]; }
    BrowserUrlMatchesPlainUrlByPieces(u, browserPath, branch);
    var z := segs[..2] + p + segs[2..];
    assert AssembledPieces(segs, p) == z;
    assert z[1..] == [segs[1]] + (p + segs[2..]);
    WithoutBlobKeepsRuns([segs[1]], p + segs[2..]);
  }

  // ---------------------------------------------------------------------
  // `_get_model_configs`
  // ---------------------------------------------------------------------

  /** A YAML value: a string, a mapping, a list, or any other scalar. */
  datatype Value = Str(text: string) | Dict(fields: map<string, Value>) | List(items: seq<Value>) | Scalar

  /** A loaded `.scivision/model.yml` document. */
  type Config = map<string, Value>

  /** The exceptions `_get_model_configs` can raise. */
  datatype ConfigError =
    | KeyMissing(key: string)      // KeyError
    | NotSubscriptable             // TypeError: a key looked up in a value that is not a mapping
    | NoModels                     // IndexError: `models` is an empty list
    | ModelsNotAList               // `models` is not a list
    | ModelNotFound(name: string)  // ValueError

  /** `config[key]`. */
  function Field(cfg: Config, key: string): Result<Value, ConfigError> {
    if key in cfg then Ok(cfg[key]) else Err(KeyMissing(key))
  }

  /** `value[key]` on an element of `models`. */
  function Get(v: Value, key: string): Result<Value, ConfigError> {
    match v
    case Dict(fields) => if key in fields then Ok(fields[key]) else Err(KeyMissing(key))
    case _ => Err(NotSubscriptable)
  }

  /** The element carries every key a model description needs. */
  predicate DescribesModel(v: Value) {
    v.Dict? && "model" in v.fields && "args" in v.fields && "prediction_fn" in v.fields
  }

  /** The top level carries every key the shared part of a config needs. */
  predicate HasSharedKeys(cfg: Config) {
    "name" in cfg && "url" in cfg && "import" in cfg
  }

  /**
   * `c` is the config split from `element`: `name`, `url` and `import` from
   * the top level, `model`, `args` and `prediction_fn` from the element.
   */
  predicate SplitFrom(cfg: Config, element: Value, c: Config) {
    HasSharedKeys(cfg) && DescribesModel(element) &&
    c == map["name" := cfg["name"], "url" := cfg["url"], "import" := cfg["import"],
             "model" := element.fields["model"], "args" := element.fields["args"],
             "prediction_fn" := element.fields["prediction_fn"]]
  }

  /** The config built for one element of `models`, looking keys up in the order the loop body does. */
  function SplitOne(cfg: Config, element: Value): (r: Result<Config, ConfigError>)
    ensures r.Ok? <==> HasSharedKeys(cfg) && DescribesModel(element)
    ensures r.Ok? ==> SplitFrom(cfg, element, r.value)
    ensures r.Err? && !HasSharedKeys(cfg) ==> r.error.KeyMissing?
  {
    var name :- Field(cfg, "name");
    var url :- Field(cfg, "url");
    var imp :- Field(cfg, "import");
    var model :- Get(element, "model");
    var args :- Get(element, "args");
    var fn :- Get(element, "prediction_fn");
    Ok(map["name" := name, "url" := url, "import" := imp, "model" := model, "args" := args, "prediction_fn" := fn])
  }

  /** One config per element of `models`, in order, or the error of an element that cannot be split. */
  function SplitAll(cfg: Config, items: seq<Value>): (r: Result<seq<Config>, ConfigError>)
    ensures r.Ok? <==> forall k :: 0 <= k < |items| ==> SplitOne(cfg, items[k]).Ok?
    ensures r.Ok? ==> |r.value| == |items| && forall k :: 0 <= k < |items| ==> SplitOne(cfg, items[k]) == Ok(r.value[k])
  {
    if items == [] then Ok([])
    else
      var init, last := items[..|items| - 1], items[|items| - 1];
      assert forall k :: 0 <= k < |init| ==> init[k] == items[k];
      var prefix := SplitAll(cfg, init);
      if prefix.Err? then Err(prefix.error)
      else
        var c := SplitOne(cfg, last);
        if c.Err? then Err(c.error) else Ok(prefix.value + [c.value])
  }

  /** The first element that cannot be split decides the error. */
  lemma {:induction false} SplitAllFirstFailure(cfg: Config, items: seq<Value>, i: nat)
    requires i < |items| && SplitOne(cfg, items[i]).Err?
    requires forall j :: 0 <= j < i ==> SplitOne(cfg, items[j]).Ok?
    ensures SplitAll(cfg, items) == Err(SplitOne(cfg, items[i]).error)
  {
    var init := items[..|items| - 1];
    assert forall k :: 0 <= k < |init| ==> init[k] == items[k];
    if i < |init| {
      SplitAllFirstFailure(cfg, init, i);
    }
  }

  /**
   * Copy `model`, `args` and `prediction_fn` of `element` into the top
   * level, one key at a time; a failing lookup leaves the writes made so far.
   */
  function Adopt(cfg: Config, element: Value): (r: (Config, Option<ConfigError>))
    ensures r.1.None? <==> DescribesModel(element)
    ensures r.1.None? ==> r.0 == cfg["model" := element.fields["model"]]["args" := element.fields["args"]]
      ["prediction_fn" := element.fields["prediction_fn"]]
    ensures OnlyModelKeysWritten(cfg, r.0)
  {
    match Get(element, "model")
    case Err(e) => (cfg, Some(e))
    case Ok(m) =>
      var withModel := cfg["model" := m];
      match Get(element, "args")
      case Err(e) => (withModel, Some(e))
      case Ok(a) =>
        var withArgs := withModel["args" := a];
        match Get(element, "prediction_fn")
        case Err(e) => (withArgs, Some(e))
        case Ok(p) => (withArgs["prediction_fn" := p], None)
  }

  /** The three keys an adopted element is copied into. */
  predicate IsModelKey(k: string) {
    k == "model" || k == "args" || k == "prediction_fn"
  }

  /** `after` differs from `before` at most in the three model keys. */
  predicate OnlyModelKeysWritten(before: Config, after: Config) {
    (forall k :: k in before && !IsModelKey(k) ==> k in after && after[k] == before[k]) &&
    forall k :: k in after && !IsModelKey(k) ==> k in before
  }

  /** The state after the named search: the config, an error, and whether an element matched. */
  datatype Selection = Selection(after: Config, error: Option<ConfigError>, matched: bool)

  /** The search of `models` for the element whose `model` equals `name`, stopping at the first. */
  function SelectNamed(cfg: Config, items: seq<Value>, name: string): (s: Selection)
    ensures !s.matched ==> s.after == cfg
    ensures s.matched ==>
      exists i :: 0 <= i < |items| && Get(items[i], "model") == Ok(Str(name)) && (s.after, s.error) == Adopt(cfg, items[i])
    ensures !s.matched && s.error.None? ==>
      forall i :: 0 <= i < |items| ==> Get(items[i], "model").Ok? && Get(items[i], "model").value != Str(name)
  {
    if items == [] then Selection(cfg, None, false)
    else
      match Get(items[0], "model")
      case Err(e) => Selection(cfg, Some(e), false)
      case Ok(v) =>
        if v == Str(name) then
          var (after, err) := Adopt(cfg, items[0]);
          Selection(after, err, true)
        else
          var rest := SelectNamed(cfg, items[1..], name);
          assert forall i :: 0 <= i < |items| - 1 ==> items[1..][i] == items[i + 1];
          rest
  }

  /** The config left behind and the list returned or the exception raised. */
  datatype Outcome = Outcome(after: Config, configs: Result<seq<Config>, ConfigError>)

  /** `_get_model_configs(full_config, load_multiple, model)`. */
  function ModelConfigs(cfg: Config, loadMultiple: bool, model: string): (o: Outcome)
    ensures OnlyModelKeysWritten(cfg, o.after)
    ensures "models" !in cfg || loadMultiple ==> o.after == cfg
  {
    if "models" in cfg then
      if !cfg["models"].List? then Outcome(cfg, Err(ModelsNotAList))
      else
        var items := cfg["models"].items;
        if loadMultiple then Outcome(cfg, SplitAll(cfg, items))
        else if model == "default" then
          if items == [] then Outcome(cfg, Err(NoModels))
          else
            var (after, err) := Adopt(cfg, items[0]);
            if err.Some? then Outcome(after, Err(err.value)) else Outcome(after, Ok([after]))
        else
          var sel := SelectNamed(cfg, items, model);
          if sel.error.Some? then Outcome(sel.after, Err(sel.error.value))
          else if "model" !in sel.after then Outcome(sel.after, Err(ModelNotFound(model)))
          else Outcome(sel.after, Ok([sel.after]))
    else if model != "default" && "model" !in cfg then Outcome(cfg, Err(KeyMissing("model")))
    else if model != "default" && cfg["model"] != Str(model) then Outcome(cfg, Err(ModelNotFound(model)))
    else Outcome(cfg, Ok([cfg]))
  }

  /**
   * With `load_multiple` and a `models` list, the input is left alone and
   * the result has one config per element, in order, each sharing the top
   * level's `name`, `url` and `import`; the model name asked for plays no part.
   */
  lemma MultipleModelsSplitPerElement(cfg: Config, items: seq<Value>, model: string)
    requires "models" in cfg && cfg["models"] == List(items)
    ensures var o := ModelConfigs(cfg, true, model);
      o.after == cfg && o == ModelConfigs(cfg, true, "default") &&
      (o.configs.Ok? <==> (items == [] || HasSharedKeys(cfg)) && forall k :: 0 <= k < |items| ==> DescribesModel(items[k])) &&
      (o.configs.Ok? ==> (|o.configs.value| == |items| &&
        forall k :: 0 <= k < |items| ==> SplitFrom(cfg, items[k], o.configs.value[k])))
  {
    var o := ModelConfigs(cfg, true, model);
    if items != [] && !HasSharedKeys(cfg) {
      assert !SplitOne(cfg, items[0]).Ok?;
    }
    if o.configs.Ok? {
      forall k | 0 <= k < |items| ensures SplitFrom(cfg, items[k], o.configs.value[k]) {
        assert SplitOne(cfg, items[k]) == Ok(o.configs.value[k]);
      }
    }
  }

  /** Without `load_multiple`, or without a `models` list, a success is the one config left in the input. */
  lemma SingleSelectionReturnsOneConfig(cfg: Config, loadMultiple: bool, model: string)
    requires !loadMultiple || "models" !in cfg
    ensures var o := ModelConfigs(cfg, loadMultiple, model);
      o.configs.Ok? ==> o.configs.value == [o.after]
    ensures "models" !in cfg ==> ModelConfigs(cfg, loadMultiple, model).after == cfg
  {
  }

  /**
   * `model="default"` with a `models` list copies the first element's
   * `model`, `args` and `prediction_fn` into the top level and keeps every
   * other key; an empty list raises.
   */
  lemma DefaultTakesFirstModel(cfg: Config, items: seq<Value>)
    requires "models" in cfg && cfg["models"] == List(items)
    ensures items == [] ==> ModelConfigs(cfg, false, "default") == Outcome(cfg, Err(NoModels))
    ensures items != [] ==>
      var o := ModelConfigs(cfg, false, "default");
      (o.configs.Ok? <==> DescribesModel(items[0])) &&
      (o.configs.Ok? ==>
        var f := items[0].fields;
        o.after == cfg["model" := f["model"]]["args" := f["args"]]["prediction_fn" := f["prediction_fn"]] &&
        o.configs.value == [o.after])
  {
  }

  /** The search passes over elements whose `model` is some other name. */
  lemma {:induction false} SelectNamedSkipsOthers(cfg: Config, items: seq<Value>, name: string, j: nat)
    requires j <= |items|
    requires forall i :: 0 <= i < j ==> Get(items[i], "model").Ok? && Get(items[i], "model").value != Str(name)
    ensures SelectNamed(cfg, items, name) == SelectNamed(cfg, items[j..], name)
  {
    if j > 0 {
      SelectNamedSkipsOthers(cfg, items[1..], name, j - 1);
      assert items[1..][j - 1..] == items[j..];
    }
  }

  /**
   * Without an error, a search that matched leaves the named model in the
   * top level, and one that did not leaves the config as it was.
   */
  lemma {:induction false} SelectNamedOutcome(cfg: Config, items: seq<Value>, name: string)
    ensures var s := SelectNamed(cfg, items, name);
      (s.error.None? && s.matched ==> "model" in s.after && s.after["model"] == Str(name)) &&
      (!s.matched ==> s.after == cfg)
  {
    if items != [] && Get(items[0], "model").Ok? && Get(items[0], "model").value != Str(name) {
      SelectNamedOutcome(cfg, items[1..], name);
    }
  }

  /**
   * A named model found in the `models` list: the first element carrying
   * that name is adopted, the elements before it are passed over.
   */
  lemma NamedSelectionTakesFirstMatch(cfg: Config, items: seq<Value>, model: string, j: nat)
    requires model != "default" && "models" in cfg && cfg["models"] == List(items)
    requires j < |items| && DescribesModel(items[j]) && items[j].fields["model"] == Str(model)
    requires forall i :: 0 <= i < j ==> items[i].Dict? && "model" in items[i].fields && items[i].fields["model"] != Str(model)
    ensures var f := items[j].fields;
      var chosen := cfg["model" := Str(model)]["args" := f["args"]]["prediction_fn" := f["prediction_fn"]];
      ModelConfigs(cfg, false, model) == Outcome(chosen, Ok([chosen]))
  {
    SelectNamedSkipsOthers(cfg, items, model, j);
  }

  /**
   * A name found nowhere in the `models` list raises `ValueError` when the
   * top level has no `model` key, and leaves the config untouched.
   */
  lemma MissingNamedModelRaises(cfg: Config, items: seq<Value>, model: string)
    requires model != "default" && "models" in cfg && cfg["models"] == List(items) && "model" !in cfg
    requires forall i :: 0 <= i < |items| ==> items[i].Dict? && "model" in items[i].fields && items[i].fields["model"] != Str(model)
    ensures ModelConfigs(cfg, false, model) == Outcome(cfg, Err(ModelNotFound(model)))
  {
    SelectNamedSkipsOthers(cfg, items, model, |items|);
  }

  /**
   * A single-model config whose `model` is not the name asked for raises
   * `ValueError`; one without a `model` key raises `KeyError`.
   */
  lemma MissingSingleModelRaises(cfg: Config, loadMultiple: bool, model: string)
    requires "models" !in cfg && model != "default"
    requires "model" in cfg ==> cfg["model"] != Str(model)
    ensures ModelConfigs(cfg, loadMultiple, model)
         == Outcome(cfg, Err(if "model" in cfg then ModelNotFound(model) else KeyMissing("model")))
  {
  }

  /**
   * A `model` key left at the top level of a multi-model config hides a
   * missing name: no `ValueError`, and the stale config comes back.
   */
  lemma StaleModelKeyHidesMissingName(cfg: Config, items: seq<Value>, model: string)
    requires model != "default" && "models" in cfg && cfg["models"] == List(items) && "model" in cfg
    requires forall i :: 0 <= i < |items| ==> items[i].Dict? && "model" in items[i].fields && items[i].fields["model"] != Str(model)
    ensures ModelConfigs(cfg, false, model) == Outcome(cfg, Ok([cfg]))
  {
    SelectNamedSkipsOthers(cfg, items, model, |items|);
  }

  /** `_get_model_configs` with the not-found test asking whether the search matched. */
  function ModelConfigsStrict(cfg: Config, loadMultiple: bool, model: string): (o: Outcome)
    ensures OnlyModelKeysWritten(cfg, o.after)
    ensures o.configs.Ok? && !loadMultiple && model != "default" ==>
      o.configs.value == [o.after] && "model" in o.after && o.after["model"] == Str(model)
  {
    if "models" in cfg && cfg["models"].List? && !loadMultiple && model != "default" then
      var sel := SelectNamed(cfg, cfg["models"].items, model);
      SelectNamedOutcome(cfg, cfg["models"].items, model);
      if sel.error.Some? then Outcome(sel.after, Err(sel.error.value))
      else if !sel.matched then Outcome(sel.after, Err(ModelNotFound(model)))
      else Outcome(sel.after, Ok([sel.after]))
    else ModelConfigs(cfg, loadMultiple, model)
  }

  /** The corrected test raises for a missing name whether or not a stale `model` key is present. */
  lemma StrictRaisesForMissingName(cfg: Config, items: seq<Value>, model: string)
    requires model != "default" && "models" in cfg && cfg["models"] == List(items)
    requires forall i :: 0 <= i < |items| ==> items[i].Dict? && "model" in items[i].fields && items[i].fields["model"] != Str(model)
    ensures ModelConfigsStrict(cfg, false, model) == Outcome(cfg, Err(ModelNotFound(model)))
  {
    SelectNamedSkipsOthers(cfg, items, model, |items|);
  }

  /** Without a `model` key at the top level, the corrected test and the original agree. */
  lemma StrictAgreesWithoutStaleKey(cfg: Config, loadMultiple: bool, model: string)
    requires "model" !in cfg
    ensures ModelConfigsStrict(cfg, loadMultiple, model) == ModelConfigs(cfg, loadMultiple, model)
  {
    if "models" in cfg && cfg["models"].List? {
      SelectNamedOutcome(cfg, cfg["models"].items, model);
    }
  }

  /** A Python `dict` holding a config, updated in place. */
  class ConfigDict {
    var entries: Config

    constructor (entries: Config)
      ensures this.entries == entries
    {
      this.entries := entries;
    }
  }

  /** The contents of a list of config dicts. */
  function Snapshot(dicts: seq<ConfigDict>): (s: seq<Config>)
    reads dicts
    ensures |s| == |dicts| && forall k :: 0 <= k < |dicts| ==> s[k] == dicts[k].entries
  {
    if dicts == [] then [] else Snapshot(dicts[..|dicts| - 1]) + [dicts[|dicts| - 1].entries]
  }

  /** The three writes into the top level that adopt an element of `models`. */
  method AdoptModel(fullConfig: ConfigDict, element: Value) returns (err: Option<ConfigError>)
    modifies fullConfig
    ensures (fullConfig.entries, err) == Adopt(old(fullConfig.entries), element)
  {
    var model := Get(element, "model");
    if model.Err? {
      return Some(model.error);
    }
    fullConfig.entries := fullConfig.entries["model" := model.value];
    var args := Get(element, "args");
    if args.Err? {
      return Some(args.error);
    }
    fullConfig.entries := fullConfig.entries["args" := args.value];
    var fn := Get(element, "prediction_fn");
    if fn.Err? {
      return Some(fn.error);
    }
    fullConfig.entries := fullConfig.entries["prediction_fn" := fn.value];
    return None;
  }

  /**
   * The `load_multiple` loop: a new dict per element of `models`, in order;
   * the first element that cannot be split raises.
   */
  method SplitEach(cfg: Config, items: seq<Value>) returns (r: Result<seq<ConfigDict>, ConfigError>)
    ensures r.Ok? == SplitAll(cfg, items).Ok?
    ensures r.Err? ==> r.error == SplitAll(cfg, items).error
    ensures r.Ok? ==> Snapshot(r.value) == SplitAll(cfg, items).value
    ensures r.Ok? ==> forall k :: 0 <= k < |r.value| ==> fresh(r.value[k])
  {
    var configs: seq<ConfigDict> := [];
    ghost var values: seq<Config> := [];
    var i := 0;
    while i < |items|
      invariant 0 <= i <= |items| && |configs| == |values| == i
      invariant forall k :: 0 <= k < i ==> SplitOne(cfg, items[k]) == Ok(values[k])
      invariant forall k :: 0 <= k < i ==> fresh(configs[k]) && configs[k].entries == values[k]
    {
      var c := SplitOne(cfg, items[i]);
      if c.Err? {
        SplitAllFirstFailure(cfg, items, i);
        return Err(c.error);
      }
      var d := new ConfigDict(c.value);
      configs, values := configs + [d], values + [c.value];
      i := i + 1;
    }
    assert SplitAll(cfg, items).value == values;
    assert Snapshot(configs) == values;
    return Ok(configs);
  }

  /**
   * The search for a named model: elements are passed over until one whose
   * `model` is the name, which is adopted, and the loop breaks.
   */
  method SearchNamed(fullConfig: ConfigDict, items: seq<Value>, model: string) returns (err: Option<ConfigError>)
    modifies fullConfig
    ensures var s := SelectNamed(old(fullConfig.entries), items, model);
      fullConfig.entries == s.after && err == s.error
  {
    ghost var cfg := fullConfig.entries;
    var i := 0;
    while i < |items|
      invariant 0 <= i <= |items|
      invariant fullConfig.entries == cfg
      invariant SelectNamed(cfg, items, model) == SelectNamed(cfg, items[i..], model)
    {
      var name := Get(items[i], "model");
      if name.Err? {
        return Some(name.error);
      }
      if name.value == Str(model) {
        err := AdoptModel(fullConfig, items[i]);
        return;
      }
      assert items[i..][1..] == items[i + 1..];
      i := i + 1;
    }
    return None;
  }

  /**
   * `_get_model_configs`: with `load_multiple` and a `models` list, one new
   * dict per element; otherwise the input dict itself, after copying the
   * chosen element's keys into it.
   */
  method GetModelConfigs(fullConfig: ConfigDict, loadMultiple: bool, model: string)
    returns (r: Result<seq<ConfigDict>, ConfigError>)
    modifies fullConfig
    ensures var o := ModelConfigs(old(fullConfig.entries), loadMultiple, model);
      fullConfig.entries == o.after && r.Ok? == o.configs.Ok? &&
      (r.Err? ==> r.error == o.configs.error) &&
      (r.Ok? ==> Snapshot(r.value) == o.configs.value)
    ensures r.Ok? && loadMultiple && "models" in old(fullConfig.entries) ==>
      forall k :: 0 <= k < |r.value| ==> fresh(r.value[k])
    ensures r.Ok? && !(loadMultiple && "models" in old(fullConfig.entries)) ==> r.value == [fullConfig]
  {
    var cfg := fullConfig.entries;
    if "models" in cfg {
      if !cfg["models"].List? {
        return Err(ModelsNotAList);
      }
      var items := cfg["models"].items;
      if loadMultiple {
        r := SplitEach(cfg, items);
        return;
      }
      if model == "default" {
        if items == [] {
          return Err(NoModels);
        }
        var err := AdoptModel(fullConfig, items[0]);
        if err.Some? {
          return Err(err.value);
        }
      } else {
        var err := SearchNamed(fullConfig, items, model);
        if err.Some? {
          return Err(err.value);
        }
        if "model" !in fullConfig.entries {
          return Err(ModelNotFound(model));
        }
      }
      return Ok([fullConfig]);
    }
    if model != "default" {
      if "model" !in cfg {
        return Err(KeyMissing("model"));
      }
      if cfg["model"] != Str(model) {
        return Err(ModelNotFound(model));
      }
    }
    return Ok([fullConfig]);
  }

  // ---------------------------------------------------------------------
  // Completing a repository path to its config file
  // ---------------------------------------------------------------------

  /** Which loader asks: `load_pretrained_model` or `load_dataset`. */
  datatype ConfigKind = ModelConfigFile | DataConfigFile

  /** The config file a repository holds for each loader. */
  function DefaultConfigFile(kind: ConfigKind): string {
    match kind
    case ModelConfigFile => ".scivision/model.yml"
    case DataConfigFile => ".scivision/data.yml"
  }

  /** The path names a YAML file. */
  predicate IsYamlPath(path: string) {
    EndsWith(path, ".yml") || EndsWith(path, ".yaml")
  }

  /**
   * A path that does not name a YAML file is taken as a repository and the
   * default config file name is appended to it.
   */
  function CompleteConfigPath(path: string, kind: ConfigKind): (r: string)
    ensures IsYamlPath(r)
    ensures IsYamlPath(path) ==> r == path
    ensures !IsYamlPath(path) ==> r == path + DefaultConfigFile(kind)
  {
    if IsYamlPath(path) then path
    else
      var r := path + DefaultConfigFile(kind);
      assert r[|r| - 4..] == DefaultConfigFile(kind)[|DefaultConfigFile(kind)| - 4..] == ".yml";
      r
  }

  /**
   * Completing is idempotent, and a completed path keeps the given one as a
   * prefix: nothing the caller wrote is dropped.
   */
  lemma CompletionIsIdempotent(path: string, kind: ConfigKind)
    ensures CompleteConfigPath(CompleteConfigPath(path, kind), kind) == CompleteConfigPath(path, kind)
    ensures StartsWith(CompleteConfigPath(path, kind), path)
  {
    var r := CompleteConfigPath(path, kind);
    assert r[..|path|] == path;
  }
}

=== FILE: seqs.dfy ===
/**
 * Sequence helpers used to model boolean-mask filtering of a table and the
 * `collections.Counter` scan for repeated names.
 */
module Seqs {

  /** No value occurs twice in `s`. */
  predicate Distinct<T(==)>(s: seq<T>) {
    forall i, j :: 0 <= i < j < |s| ==> s[i] != s[j]
  }

  /**
   * The positions of `s` whose element `keep` accepts, in increasing order:
   * the row labels a boolean mask selects from a table.
   */
  function KeptIndices<T>(s: seq<T>, keep: T -> bool): (idx: seq<nat>)
    ensures forall k :: 0 <= k < |idx| ==> idx[k] < |s| && keep(s[idx[k]])
    ensures forall k, l :: 0 <= k < l < |idx| ==> idx[k] < idx[l]
    ensures forall i :: 0 <= i < |s| && keep(s[i]) ==> i in idx
  {
    if s == [] then []
    else KeptIndices(s[..|s| - 1], keep) + (if keep(s[|s| - 1]) then [|s| - 1] else [])
  }

  /**
   * The elements of `s` that `keep` accepts, in their original order: the
   * rows `df[mask]` keeps. Element k of the result is row `KeptIndices[k]`
   * of `s`, so the result is an ordered subsequence that repeats no row.
   */
  function Filter<T(!new)>(s: seq<T>, keep: T -> bool): (r: seq<T>)
    ensures var idx := KeptIndices(s, keep);
      |r| == |idx| && forall k :: 0 <= k < |r| ==> r[k] == s[idx[k]]
    ensures forall x :: x in r <==> x in s && keep(x)
  {
    if s == [] then []
    else Filter(s[..|s| - 1], keep) + (if keep(s[|s| - 1]) then [s[|s| - 1]] else [])
  }

  /** Applying two masks one after the other keeps the rows both accept. */
  lemma {:induction false} FilterTwice<T(!new)>(s: seq<T>, p: T -> bool, q: T -> bool, both: T -> bool)
    requires forall i :: 0 <= i < |s| ==> both(s[i]) == (p(s[i]) && q(s[i]))
    ensures Filter(Filter(s, p), q) == Filter(s, both)
  {
    if s != [] {
      var init, last := s[..|s| - 1], s[|s| - 1];
      FilterTwice(init, p, q, both);
      if p(last) {
        var fp := Filter(s, p);
        assert fp == Filter(init, p) + [last];
        assert fp[..|fp| - 1] == Filter(init, p);
      } else {
        assert Filter(s, p) == Filter(init, p);
      }
    }
  }

  /** A mask that accepts no row of `s` selects nothing. */
  lemma {:induction false} FilterNothing<T(!new)>(s: seq<T>, keep: T -> bool)
    requires forall i :: 0 <= i < |s| ==> !keep(s[i])
    ensures Filter(s, keep) == []
  {
    if s != [] {
      FilterNothing(s[..|s| - 1], keep);
    }
  }

  /** A mask that accepts every row of `s` keeps the table as it is. */
  lemma {:induction false} FilterEverything<T(!new)>(s: seq<T>, keep: T -> bool)
    requires forall i :: 0 <= i < |s| ==> keep(s[i])
    ensures Filter(s, keep) == s
  {
    if s != [] {
      FilterEverything(s[..|s| - 1], keep);
    }
  }

  /** A one-row table keeps its row exactly when the mask accepts it. */
  lemma FilterOne<T(!new)>(x: T, keep: T -> bool)
    ensures Filter([x], keep) == if keep(x) then [x] else []
  {
    assert [x][..0] == [];
  }

  /** Selecting rows of a table without repeats gives a result without repeats. */
  lemma FilterDistinct<T(!new)>(s: seq<T>, keep: T -> bool)
    requires Distinct(s)
    ensures Distinct(Filter(s, keep))
  {
    var r, idx := Filter(s, keep), KeptIndices(s, keep);
    forall i, j | 0 <= i < j < |r| ensures r[i] != r[j] {
      assert idx[i] < idx[j];
    }
  }

  /**
   * The distinct values of `s` in order of first occurrence: the key order of
   * a `collections.Counter` built from `s`.
   */
  function FirstOccurrences<T(==,!new)>(s: seq<T>): (r: seq<T>)
    ensures forall x :: x in r <==> x in s
    ensures Distinct(r)
  {
    if s == [] then []
    else
      var d := FirstOccurrences(s[..|s| - 1]);
      assert forall x :: x in s <==> x in s[..|s| - 1] || x == s[|s| - 1];
      if s[|s| - 1] in d then d else d + [s[|s| - 1]]
  }

  /** A sequence repeats no value exactly when no value is counted twice. */
  lemma {:induction false} DistinctIffSingleCounts<T(!new)>(s: seq<T>)
    ensures Distinct(s) <==> forall x :: multiset(s)[x] <= 1
  {
    if s != [] {
      var init, last := s[..|s| - 1], s[|s| - 1];
      assert s == init + [last];
      DistinctIffSingleCounts(init);
      if Distinct(s) {
        assert Distinct(init);
        assert last !in init by {
          forall i | 0 <= i < |init| ensures init[i] != last {
            assert s[i] == init[i];
          }
        }
      } else if forall x :: multiset(s)[x] <= 1 {
        assert forall x :: multiset(init)[x] <= 1 by {
          forall x ensures multiset(init)[x] <= 1 {
            assert multiset(s)[x] == multiset(init)[x] + multiset([last])[x];
          }
        }
        assert multiset(s)[last] == multiset(init)[last] + 1;
        assert last !in init;
        assert Distinct(s) by {
          forall i, j | 0 <= i < j < |s| ensures s[i] != s[j] {
            if j == |s| - 1 {
              assert s[i] in init;
            } else {
              assert s[i] == init[i] && s[j] == init[j];
            }
          }
        }
      }
    }
  }

  /**
   * The values counted more than once in `s`, each listed once, in order of
   * first occurrence: `[item for item, count in Counter(s).items() if count > 1]`.
   */
  function Duplicates<T(==,!new)>(s: seq<T>): (dups: seq<T>)
    ensures forall x :: x in dups <==> multiset(s)[x] > 1
    ensures Distinct(dups)
    ensures dups == [] <==> Distinct(s)
  {
    var keys := FirstOccurrences(s);
    FilterDistinct(keys, x => multiset(s)[x] > 1);
    DistinctIffSingleCounts(s);
    var dups := Filter(keys, x => multiset(s)[x] > 1);
    assert forall x :: multiset(s)[x] > 0 ==> x in s;
    assert dups != [] ==> dups[0] in dups;
    dups
  }
}

=== FILE: strings.dfy ===
/**
 * The few Python string operations the URL rewriting uses: `split`, `join`,
 * `replace(pat, "")`, `startswith` and `endswith`.
 */
module Strings {

  predicate StartsWith(s: string, prefix: string) {
    |prefix| <= |s| && s[..|prefix|] == prefix
  }

  predicate EndsWith(s: string, suffix: string) {
    |suffix| <= |s| && s[|s| - |suffix|..] == suffix
  }

  /** `s.split(sep)`: the pieces between separators, at least one. */
  function Split(s: string, sep: char): (parts: seq<string>)
    ensures |parts| >= 1
    ensures forall i :: 0 <= i < |parts| ==> sep !in parts[i]
  {
    if s == [] then [""]
    else
      var rest := Split(s[1..], sep);
      if s[0] == sep then [""] + rest
      else [[s[0]] + rest[0]] + rest[1..]
  }

  /** `filter(None, parts)`: the pieces that are not empty, in order. */
  function NonEmptyPieces(parts: seq<string>): (r: seq<string>)
    ensures forall i :: 0 <= i < |r| ==> r[i] != ""
  {
    if parts == [] then []
    else (if parts[0] == "" then [] else [parts[0]]) + NonEmptyPieces(parts[1..])
  }

  /** The pieces kept are exactly the non-empty ones. */
  lemma {:induction false} NonEmptyPiecesMembers(parts: seq<string>)
    ensures forall x :: x in NonEmptyPieces(parts) <==> x in parts && x != ""
  {
    if parts != [] {
      NonEmptyPiecesMembers(parts[1..]);
      assert forall x :: x in parts <==> x == parts[0] || x in parts[1..];
    }
  }

  /** Dropping empty pieces from a concatenation drops them from each part. */
  lemma {:induction false} NonEmptyPiecesAppend(xs: seq<string>, ys: seq<string>)
    ensures NonEmptyPieces(xs + ys) == NonEmptyPieces(xs) + NonEmptyPieces(ys)
  {
    if xs == [] {
      assert xs + ys == ys;
    } else {
      var head := if xs[0] == "" then [] else [xs[0]];
      var front, back := NonEmptyPieces(xs[1..]), NonEmptyPieces(ys);
      NonEmptyPiecesAppend(xs[1..], ys);
      assert (xs + ys)[1..] == xs[1..] + ys;
      assert NonEmptyPieces(xs + ys) == head + (front + back);
      assert head + (front + back) == (head + front) + back;
    }
  }

  /** Pieces that are all non-empty are kept whole. */
  lemma {:induction false} NonEmptyPiecesKeepsAll(parts: seq<string>)
    requires forall i :: 0 <= i < |parts| ==> parts[i] != ""
    ensures NonEmptyPieces(parts) == parts
  {
    if parts != [] {
      NonEmptyPiecesKeepsAll(parts[1..]);
    }
  }

  /** `sep.join(parts)`. */
  function Join(parts: seq<string>, sep: char): string {
    if |parts| == 0 then ""
    else if |parts| == 1 then parts[0]
    else parts[0] + [sep] + Join(parts[1..], sep)
  }

  /** Joining the pieces of a split gives the string back. */
  lemma {:induction false} JoinSplit(s: string, sep: char)
    ensures Join(Split(s, sep), sep) == s
  {
    if s != [] {
      var rest := Split(s[1..], sep);
      JoinSplit(s[1..], sep);
      if s[0] != sep {
        if |rest| > 1 {
          assert Join(rest, sep) == rest[0] + [sep] + Join(rest[1..], sep);
          assert Join([[s[0]] + rest[0]] + rest[1..], sep)
              == [s[0]] + rest[0] + [sep] + Join(rest[1..], sep);
        }
      }
    }
  }

  /** Splitting a string that starts with a separator-free piece. */
  lemma {:induction false} SplitAfterPiece(x: string, t: string, sep: char)
    requires sep !in x
    ensures Split(x + t, sep) == [x + Split(t, sep)[0]] + Split(t, sep)[1..]
  {
    var st := Split(t, sep);
    if x != [] {
      SplitAfterPiece(x[1..], t, sep);
      var rest := Split(x[1..] + t, sep);
      assert rest[0] == x[1..] + st[0] && rest[1..] == st[1..];
      assert (x + t)[1..] == x[1..] + t;
      assert [x[0]] + (x[1..] + st[0]) == x + st[0];
    } else {
      assert x + t == t;
      assert x + st[0] == st[0];
    }
  }

  /** Splitting a join of separator-free pieces gives the pieces back. */
  lemma {:induction false} SplitJoin(parts: seq<string>, sep: char)
    requires |parts| >= 1
    requires forall i :: 0 <= i < |parts| ==> sep !in parts[i]
    ensures Split(Join(parts, sep), sep) == parts
  {
    if |parts| == 1 {
      SplitAfterPiece(parts[0], "", sep);
      assert parts[0] + "" == parts[0];
    } else {
      var j := Join(parts[1..], sep);
      SplitJoin(parts[1..], sep);
      SplitAfterPiece(parts[0], [sep] + j, sep);
      assert ([sep] + j)[1..] == j;
      assert Split([sep] + j, sep) == [""] + parts[1..];
      assert parts[0] + [sep] + j == parts[0] + ([sep] + j);
      assert parts[0] + "" == parts[0];
      assert [parts[0]] + parts[1..] == parts;
    }
  }

  /** Joining two non-empty lists is joining each and putting a separator between. */
  lemma {:induction false} JoinAppend(xs: seq<string>, ys: seq<string>, sep: char)
    requires xs != [] && ys != []
    ensures Join(xs + ys, sep) == Join(xs, sep) + [sep] + Join(ys, sep)
  {
    if |xs| > 1 {
      JoinAppend(xs[1..], ys, sep);
      assert (xs + ys)[1..] == xs[1..] + ys;
    } else {
      assert (xs + ys)[1..] == ys;
    }
  }

  /** Every piece preceded by one separator: the tail of a join after its first piece. */
  function Prefixed(parts: seq<string>, sep: char): (r: string)
    ensures parts != [] ==> r != [] && r[0] == sep
  {
    if parts == [] then "" else [sep] + parts[0] + Prefixed(parts[1..], sep)
  }

  /** A join is its first piece followed by the others, each after a separator. */
  lemma {:induction false} JoinIsHeadThenPrefixed(parts: seq<string>, sep: char)
    requires parts != []
    ensures Join(parts, sep) == parts[0] + Prefixed(parts[1..], sep)
  {
    if |parts| == 1 {
      assert parts[0] + "" == parts[0];
    } else {
      JoinIsHeadThenPrefixed(parts[1..], sep);
      assert parts[1..][1..] == parts[2..];
    }
  }

  /**
   * `s.replace(pat, "")`: scanning left to right, each occurrence of `pat`
   * is deleted and the scan resumes after it, so occurrences never overlap.
   */
  function RemoveAll(s: string, pat: string): (r: string)
    requires pat != []
    ensures |r| <= |s|
    decreases |s|
  {
    if |s| < |pat| then s
    else if s[..|pat|] == pat then RemoveAll(s[|pat|..], pat)
    else [s[0]] + RemoveAll(s[1..], pat)
  }

  /** No occurrence of `pat` starts at a position of `s` before `n`. */
  predicate NoMatchBefore(s: string, pat: string, n: nat) {
    forall i :: 0 <= i < n && i + |pat| <= |s| ==> !StartsWith(s[i..], pat)
  }

  /** No occurrence can start inside a prefix that lacks the pattern's first character. */
  lemma NoMatchInPrefixWithoutHead(a: string, b: string, pat: string)
    requires pat != [] && pat[0] !in a
    ensures NoMatchBefore(a + b, pat, |a|)
  {
    forall i | 0 <= i < |a| && i + |pat| <= |a + b|
      ensures !StartsWith((a + b)[i..], pat)
    {
      assert (a + b)[i..][0] == a[i];
    }
  }

  /** A prefix in which no occurrence starts is kept as it is. */
  lemma {:induction false} RemoveAllKeepsPrefix(a: string, b: string, pat: string)
    requires pat != []
    requires NoMatchBefore(a + b, pat, |a|)
    ensures RemoveAll(a + b, pat) == a + RemoveAll(b, pat)
    decreases |a|
  {
    if a != [] {
      var s := a + b;
      assert s[0..] == s;
      assert s[1..] == a[1..] + b;
      forall i | 0 <= i < |a| - 1 && i + |pat| <= |s[1..]|
        ensures !StartsWith(s[1..][i..], pat)
      {
        assert s[1..][i..] == s[i + 1..];
      }
      RemoveAllKeepsPrefix(a[1..], b, pat);
    } else {
      assert a + b == b;
    }
  }

  /** An occurrence right after a prefix lacking the pattern's first character is deleted. */
  lemma RemoveAllDeletesAfterPrefix(a: string, pat: string, t: string)
    requires pat != [] && pat[0] !in a
    ensures RemoveAll(a + pat + t, pat) == a + RemoveAll(t, pat)
  {
    NoMatchInPrefixWithoutHead(a, pat + t, pat);
    assert a + pat + t == a + (pat + t);
    RemoveAllKeepsPrefix(a, pat + t, pat);
    assert (pat + t)[..|pat|] == pat && (pat + t)[|pat|..] == t;
  }
}

=== FILE: wrappers.dfy ===
/** Failure-compatible wrappers shared by the catalog and the reader models. */
module Wrappers {

  /** A value that may be absent: Python's `Optional[...]` field defaults of `None`. */
  datatype Option<+T> = None | Some(value: T)

  /** The outcome of an operation that raises an exception on failure. */
  datatype Result<+T, +E> = Ok(value: T) | Err(error: E)
  {
    predicate IsFailure() {
      Err?
    }

    function PropagateFailure<U>(): Result<U, E>
      requires Err?
    {
      Err(error)
    }

    function Extract(): T
      requires Ok?
    {
      value
    }
  }
}
